=== FILE: README.md ===
# Ring buffers, a small epoll reactor and their helpers, in Dafny

This project models three parts of the `linux` C++ sample repository and
proves properties of the model. Nothing is executed. Almost every system
call (epoll, eventfd, timerfd, signalfd, read, close) is replaced by its
result, which becomes an input to the operation that makes it. The
exceptions are listed under "Left out": the reactor's eventfd write and
drain read are taken to succeed.

- **Ring buffers** (`queue.dfy`, with `bits.dfy`). `sr_sw_queue` and
  `sr_mw_queue` hold 65536 pointer slots and two free-running unsigned 64-bit
  counters. The model keeps the slot array and the counters, with the 2^64
  wrap-around written out. It proves that `pos & 65535` is `pos mod 65536`.
  An abstraction function `Contents` gives the pointers held, oldest first.
  `add` appends to `Contents` and `remove` pops its head; both leave the state
  alone when they refuse. Over any run of adds and removes nothing is lost or
  reordered, and from a fresh queue the removed pointers are a prefix of the
  added ones.
- **Reactor** (`trigger.dfy`, `reactor.dfy`, `eventloop.dfy`).
  - `linux::event::thread` is a pure state: the handler table, the task
    queue, the epoll interest list, the eventfd counter and the `stop` flag.
  - `register_trigger` stores the handler in the table at once, but only
    queues its epoll add; `async_call` only queues work. On the wakeup
    descriptor, `run` executes the whole queue oldest first and then makes
    its one read. A handler runs before its drain read. The signal
    descriptor sets `stop`, yet the rest of the batch is still dispatched.
  - The constructors release each descriptor they obtained exactly once
    when they throw.
  - `event_loop` keeps its triggers in a table of uniquely owned entries.
    Its loop never runs the deferred registrations, so a trigger registered
    with it never reaches the interest list.
- **Helpers** (`sys.dfy`, `demo.dfy`, `client.dfy`).
  - The close-retry deleter, shared by `deleter4fd`, `FDDeleter` and
    `deleter`.
  - The dispatch loop of the epoll demo:
    - only SIGUSR2 or a wait failure other than EINTR stops it;
    - every event of a batch is logged in order;
    - the standard-input buffer ends NUL-terminated with at most nine
      visible characters. This uses the corrected fill described under
      "Findings".
  - The batch capacity `MAX_EVENTS = 10` is `Reactor.MaxEvents` and
    `Demo.MaxEvents`; every scripted wait is bounded by it.
  - The socket demo's `client` buffer.

Where the code and its documented behaviour differ, the model follows the code:

- `thread::run` ignores a failed `epoll_wait` whatever its errno; it never
  stops on an error.
- `event_loop::operator()` drains the wakeup descriptor without running
  anything queued.
- The header declares `trigger` without the `fd`/`events`/`handler` members
  and the three-argument constructor that event/event.cxx uses. The model
  keeps the fields the implementation reads.

## Model

| member | source | states |
|---|---|---|
| Bits.LowMaskIsMod | queue/include/queue.hxx:35 | masking with 2^k - 1 keeps exactly the remainder modulo 2^k |
| Queue.Slot | queue/include/queue.hxx:46 | the slot `pos & (buffer_size - 1)` is below 65536 and equals `pos mod 65536` |
| Queue.Count | queue/include/queue.hxx:54-56 | the occupancy is the writer counter minus the reader counter, reduced modulo 2^64 |
| Queue.Empty | queue/include/queue.hxx:28-30 | a fresh queue satisfies the class invariant, holds nothing, and every slot is null |
| Queue.Add | queue/include/queue.hxx:31-41 | succeeds iff the queue is not full. A refusal changes nothing. A success stores `p` at `writer_pos mod 65536`, advances `writer_pos` by one modulo 2^64, leaves `reader_pos` alone, and appends `p` to the contents |
| Queue.Remove | queue/include/queue.hxx:42-52 | succeeds iff the queue is non-empty. A refusal leaves the queue and `p` unchanged. A success yields the slot at `reader_pos mod 65536`, which is the oldest element, advances `reader_pos` by one, and removes that element from the contents |
| Queue.Replay | queue/queue_test.cxx:24-43 | over any sequence of producer adds and consumer removes, the initial contents followed by the added pointers equal the removed pointers followed by the final contents |
| Queue.FifoFromEmpty | queue/queue_test.cxx:25-28 | from a fresh queue, the pointers removed are a prefix of the pointers added, in the same order |
| Queue.MwEmpty | queue/include/queue.hxx:69-71 | a fresh multi-writer queue is empty and its writer lock is free |
| Queue.MwAdd | queue/include/queue.hxx:72-86 | leaves the writer lock free on both the full and the success path, and otherwise behaves exactly as the single-writer `add` |
| Queue.MwRemove | queue/include/queue.hxx:87-97 | has the single-writer `remove` contract and leaves the writer lock untouched |
| Sys.CloseRetry | event/event.cxx:134-142 | `close` is called again exactly while the previous call failed with EINTR. It stops after the first other outcome (the same loop as `FDDeleter` and `deleter`) |
| Trigger.NewTimerTrigger | event/event.cxx:24-36 | built iff both `timerfd_create` and `timerfd_settime` succeed. It is armed for a first expiry after 1 s with period `sec` and watched for EPOLLIN. A throw carries the first failure's errno. The timer descriptor is closed exactly once on a throw and kept otherwise |
| Trigger.Move | event/include/event.hxx:50-53 | a move hands descriptor, mask, task and guard to the new object. The source is left with no descriptor and no guard, so the descriptor is closed once in total |
| Reactor.NewThread | event/event.cxx:38-72 | built iff all six steps succeed, with only the signal and wakeup descriptors in the interest list and an empty table and queue. A throw unwinds signal, wakeup, epoll in that order. It carries the errno of the first failing step, for each of the six steps |
| Reactor.NewThreadReleasesOnce | event/include/event.hxx:96-101 | every descriptor the constructor obtained is closed exactly once when it throws, and kept otherwise |
| Reactor.AsyncCall | event/event.cxx:90-101 | the task joins the tail of the queue and the value 1 written to the eventfd raises the wakeup counter by exactly one. Nothing else changes, and the reactor invariant is kept |
| Reactor.RegisterTrigger | event/event.cxx:80-88 | records {mask, task} under `t.fd` only if that key is new, and never touches the interest list. It queues the deferred epoll add of the stored entry, with the outcome that add will have, and raises the wakeup counter by one. Nothing else changes (descriptors, `stop`), and the invariant is kept |
| Reactor.RunTasks | event/event.cxx:112-118 | each queued task runs exactly once, in queue order. The interest list gains exactly the descriptors whose deferred `epoll_ctl` add succeeds; a failed add is ignored, and existing entries keep their masks |
| Reactor.NewMaskIsFirstAdd | event/event.cxx:84-118 | a descriptor the deferred adds newly watch gets the mask of the first of its adds that succeeds |
| Reactor.Dispatch | event/event.cxx:106-129 | one ready descriptor faults exactly when it is neither the wakeup nor the signal descriptor and has no table entry. The table and the descriptors never change, `stop` is set only by the signal descriptor, and every other descriptor ends with a drain read of itself |
| Reactor.WakeupDrainsQueue | event/event.cxx:107-121 | the wakeup descriptor runs every queued task oldest first and leaves the queue empty. Only then does it make its one read, which resets the counter |
| Reactor.SignalOnlyStops | event/event.cxx:122-123 | the signal descriptor sets `stop` and does nothing else |
| Reactor.HandlerBeforeDrain | event/event.cxx:124-129 | for a registered descriptor the handler runs, then exactly one drain read follows. An unregistered one raises before anything runs |
| Reactor.DispatchBatch | event/event.cxx:106-130 | a batch keeps the table and the descriptors. It faults exactly when it holds an unknown descriptor, and a completed batch has set `stop` exactly when the signal descriptor was in it |
| Reactor.BatchIgnoresStop | event/event.cxx:106 | the `for` over a batch never consults `stop`: the same batch runs the same trace and ends in the same state, apart from the flag, whether or not `stop` is set |
| Reactor.ShutdownFinishesBatch | event/event.cxx:104-123 | when the signal descriptor is reported, the rest of the batch is still dispatched exactly as it would have been, and `stop` is set at the end |
| Reactor.DispatchKeepsInv | event/event.cxx:106-129 | one dispatch keeps the invariant and the descriptors, and only grows the interest list |
| Reactor.BatchKeepsInv | event/event.cxx:106-130 | a whole batch keeps the invariant, and the interest list only grows |
| Reactor.ReadyBatchNeverFaults | event/event.cxx:124-125 | a batch of descriptors from the interest list never reaches the faulting table lookup |
| Reactor.Run | event/event.cxx:103-132 | the loop waits only while `stop` is clear, and an already stopped reactor makes no wait. It stops waiting early only after `stop` was set. A running reactor makes at least one wait. A ready first wait dispatches its whole batch first. A fault in that batch ends the run there, and so does a batch that sets `stop`, after exactly one wait |
| Reactor.ShutdownStopsRun | event/event.cxx:104-123 | when the signal descriptor is reported, the whole batch is dispatched and the loop then makes no further wait, whatever waits would follow |
| Reactor.RunSplit | event/event.cxx:103-132 | waits that leave the reactor running compose with any later waits: the run continues from the state they left, and the traces follow each other |
| Reactor.ShutdownAfterRunning | event/event.cxx:103-123 | after waits that left the reactor running, a later batch reporting the signal descriptor is dispatched whole and is the last wait |
| Reactor.FailedWaitIsIgnored | event/event.cxx:105-106 | a failed wait dispatches nothing and changes nothing, whatever its errno |
| Reactor.RegistrationIsDeferred | event/event.cxx:85-87 | right after registration the interest list is unchanged. The next wakeup dispatch runs the deferred add. The descriptor is then watched iff it already was, an earlier queued add of it succeeded, or this add succeeded |
| Reactor.AsyncCallsRunInOrder | event/event.cxx:113-117 | two `async_call`s run, after everything queued before them, in the order they were made, then the counter is drained |
| Reactor.RunKeepsInv | event/event.cxx:103-132 | the reactor invariant holds for as long as the loop runs |
| EventLoop.NewLoop | event/event.cxx:144-174 | built iff all five steps succeed, each descriptor field holding the result of its own call and only the signal and wakeup descriptors watched, with an empty table and `exit` false. It releases every obtained descriptor exactly once on a throw, and the throw carries the errno of the first failing step |
| EventLoop.RegisterTrigger | event/include/event.hxx:127-138 | the trigger is moved into the table under `native_handle()` only when that key is new, otherwise the existing entry stays and the new one is destroyed. The caller's object is left empty, so the descriptor is closed once overall. The epoll add is handed to `async_call`, never done inline. The descriptors, the interest list and `exit` are unchanged |
| EventLoop.LoopDispatch | event/event.cxx:179-190 | one ready descriptor only reads and discards, or, for the signal descriptor, sets `exit`; nothing else changes |
| EventLoop.LoopBatch | event/event.cxx:178-191 | a batch only reads and discards. It leaves table, pending calls and interest list alone, and sets `exit` exactly when the signal descriptor is reported |
| EventLoop.LoopRun | event/event.cxx:176-193 | however the waits go, the loop never runs a deferred call or a handler. Only `exit` changes. A running loop waits at least once, stops waiting early only once `exit` is set, and `exit` becomes set only when some batch reported the signal descriptor |
| EventLoop.LoopShutdownStops | event/event.cxx:176-191 | one wait's batch is read through in full at the head of the loop's trace. A batch that reports the signal descriptor sets `exit` and is the last wait |
| EventLoop.RegisteredTriggerNeverWatched | event/include/event.hxx:132-137 | a trigger registered with `event_loop` is never added to the interest list, however long the loop runs |
| Demo.FillAsWritten | event/event_demo.cxx:208-210 | as written, a failed read makes the `memset` start one byte before the buffer. Otherwise the buffer is NUL-terminated |
| Demo.FillStdin | event/event_demo.cxx:206-211 | the corrected buffer is NUL-terminated. The first min(n, 9) bytes read are visible and NUL follows, with a failed read counting as no bytes |
| Demo.FillAgreesOnSuccess | event/event_demo.cxx:208-210 | for every successful read the corrected buffer is exactly what the code as written produces |
| Demo.FailedReadWritesBefore | event/event_demo.cxx:208-209 | a read failing with EAGAIN makes the code as written write before the buffer, while the corrected fill yields an empty string |
| Demo.Handle | event/event_demo.cxx:188-218 | the exit is requested iff the event is on the signal descriptor (and not the timer's) and carries SIGUSR2. Other signals are logged. The first descriptor matched picks the note: the counter for the timer and the eventfd, the filled buffer for standard input, a closed client for the socket. A descriptor matching none of the five is unknown |
| Demo.BranchByIdentity | event/event_demo.cxx:187-218 | with distinct descriptors, each event goes to the one branch its descriptor names |
| Demo.DemoBatch | event/event_demo.cxx:187-219 | every event of a batch gets exactly one note, in index order, even after the exit was requested. `stop` ends set iff it was set or some event requested the exit |
| Demo.Iterate | event/event_demo.cxx:186-226 | a successful wait dispatches its batch through the `for` loop. A failed wait sets `stop` iff its errno is not EINTR, and logs an error iff it does |
| Demo.DemoRun | event/event_demo.cxx:185-227 | the flag is checked only before a wait: a stopped loop makes no wait, and the loop stops waiting early only once `stop` is set. A running loop makes at least one wait, and its log starts with what that first wait logged |
| Demo.DemoRunSplit | event/event_demo.cxx:185-227 | waits that leave the loop running compose with any later waits: the log is their log followed by the later log, and all their waits are counted |
| Demo.ExitAfterRunning | event/event_demo.cxx:185-227 | after waits that kept the loop running, a batch carrying SIGUSR2 is the last wait. The log is the earlier log followed by one note per event of that batch |
| Demo.WaitFailureRule | event/event_demo.cxx:222-226 | a non-EINTR failure logs one error and ends the loop. EINTR is retried with nothing logged |
| Demo.ExitFinishesBatch | event/event_demo.cxx:192-198 | a SIGUSR2 record anywhere in a batch still lets the whole batch be logged, and then the loop makes no further wait |
| Client.NewClient | ipcsocket/simple.cxx:38-39 | a new client records size 0 and `getsocket` returns the descriptor it was given |
| Client.SetData | ipcsocket/simple.cxx:41-44 | copies min(512, sz) bytes to the front of the buffer, leaves the rest, and records `sz` unclamped |
| Client.GetData | ipcsocket/simple.cxx:45-48 | copies min(capacity, size) bytes and reports the recorded size back. It reads past the 512-byte buffer iff that minimum exceeds 512 |
| Client.SetThenGet | ipcsocket/simple.cxx:41-48 | round trip: at most 512 bytes set come back unchanged with their size into any destination of at least that capacity |
| Client.OversizedSetDataOverReads | ipcsocket/simple.cxx:43-46 | as written, setting 600 bytes and reading them back with capacity 600 reads 600 bytes out of the 512-byte buffer |
| Client.SetDataClamped | ipcsocket/simple.cxx:41-44 | the corrected `set_data` keeps min(512, sz) bytes and records exactly that count, so the size never exceeds the buffer |
| Client.ClampedSetThenGet | ipcsocket/simple.cxx:41-48 | with the corrected `set_data`, `get_data` never reads past the buffer and returns the bytes kept, truncated to the capacity |

## Left out

- Concurrency. Threads, `pthread_mutex`, the compare-and-swap spin lock,
  compiler barriers and memory ordering are not modelled; the queues and the
  reactors are sequential state machines. Three consequences are not covered:
  - `run` holds the queue mutex while tasks run, so a task that calls
    `async_call` would deadlock;
  - `run` empties the queue before reading the eventfd, so a wakeup written
    in between can be consumed for a task that is run only at the next
    wakeup;
  - `register_trigger` inserts into the handler table on the caller's
    thread without a lock, while the reactor thread looks entries up in
    `run` (event/event.cxx:125). That is a data race: the table is not only
    changed on the reactor thread.
- Queue.MwAdd: requires the writer lock to be free on entry. A writer that
  finds it held spins until another writer frees it, which is concurrency.
- The kernel. epoll, eventfd, timerfd, signalfd, `read`, `write`, `accept`
  and `close` are not modelled; their results are inputs, except as below.
  Signal masking and
  delivery, and the wall-clock behaviour of timers, are left out too. A timer
  records only its initial and periodic expiry.
- Reactor.AsyncCall: the eventfd `write` of `async_call` is taken to
  succeed. Its result is ignored in the code, and it fails only when the
  counter would overflow.
- Reactor.WakeupDrainsQueue: the drain `read` of a reactor is taken to
  succeed. Its result is ignored in the code, and the model keeps no value
  for it.
- Demo.Handle: uses the corrected fill `Demo.FillStdin` for the
  standard-input branch, so a failed read logs an empty string. The
  undefined write of the code as written is `Demo.FillAsWritten`, and the
  two agree on every successful read.
- Tasks and handlers are opaque identifiers. A task's own effects, other
  than the deferred epoll add, are not modelled.
- Reactor.Run: ends when the scripted waits run out, where the real loop
  blocks in `epoll_wait` for ever.
- An unregistered descriptor in `thread::run` default-constructs a table
  entry and throws `std::bad_function_call` out of the thread. The model
  records only that `run` ends by an exception.
- `event_loop::async_call` and `event_loop::do_register` are declared but
  not defined. The model records each call handed to `async_call` as
  pending and gives it no effect.
- The `event_loop` and `timer_trigger` move constructors and assignments
  are declared but not defined. `Trigger.Move` states the move the header
  declares.
- The demo's set-up: descriptor creation, the `perror`/`EXIT_FAILURE`
  exits and the timer's settings (first expiry after 2 s, then every 5 s).
  Also its helper thread, `printf` output, and event/event_test.cxx.
  The demo's timer, eventfd and signal reads are taken as already holding a
  value; the uninitialised value a failed read would leave is not modelled.
- The socket programs: ipcunix/streamsrv.cxx, ipcunix/streamclt.cxx, and the
  `main` of ipcsocket/simple.cxx. ipcsocket/simple.cxx does not compile as
  written (`#icnlude` on line 23, and `min` over `size_t` and `int` on
  line 42); `client` is modelled with the evident minimum.
- Client.SetData: takes `sz` as a natural number; a negative `int` size,
  which `memcpy` would receive as a huge `size_t`, is not modelled.
- Client.GetData: takes the capacity `cap` as a natural number for the same
  reason; a negative `sz` would make `min(sz, size)` negative and `memcpy`
  would receive a huge `size_t`.
- `thread::stop` is never initialised in the code; the model starts it at
  false.
- The `client` buffer's initial bytes are indeterminate in C++; here they
  are an input to `Client.NewClient`.
- signal/thread.cxx (signal semantics) is not part of this model.

## Findings

| source | as written | input that shows it | evidently intended | confidence | as-written member | corrected member |
|---|---|---|---|---|---|---|
| ipcsocket/simple.cxx:41-48 | `set_data` copies at most 512 bytes but records `size = sz` | `set_data(src, 600)` then `get_data(des, sz)` with `sz == 600`: `memcpy` copies 600 bytes out of the 512-byte `buf` | record the number of bytes actually kept, `min(512, sz)` | not executed; high | Client.SetData | Client.SetDataClamped |
| event/event_demo.cxx:208-209 | `n` from `read` on non-blocking standard input can be -1, and `memset(buf + n, 0, sizeof(buf) - n)` then writes 11 bytes starting at `buf[-1]` | readiness reported, then `read` fails with EAGAIN (errno 11), so `n == -1` | treat a failed read as zero bytes, leaving an empty string | not executed; medium | Demo.FillAsWritten | Demo.FillStdin |

=== FILE: bits.dfy ===
/** Bitwise AND on non-negative integers and the fact that masking with
    2^k - 1 keeps exactly the remainder modulo 2^k. The ring buffers index
    their slots with `pos & (size - 1)`; this module is what lets the rest of
    the model reason about that index as `pos % size`. */
module Bits {

  function Pow2(k: nat): (r: nat)
    ensures r >= 1
  {
    if k == 0 then 1 else 2 * Pow2(k - 1)
  }

  /** Bitwise AND of two non-negative integers, one bit at a time from the
      least significant end. */
  function BitAnd(x: nat, y: nat): nat
    decreases x
  {
    if x == 0 || y == 0 then 0
    else 2 * BitAnd(x / 2, y / 2) + (if x % 2 == 1 && y % 2 == 1 then 1 else 0)
  }

  /** A positive multiple of a positive number is at least that number. */
  lemma {:induction false} MulAtLeast(m: int, d: int)
    requires m > 0 && d >= 1
    ensures m * d >= m
  {
    if d > 1 {
      MulAtLeast(m, d - 1);
      assert m * d == m * (d - 1) + m;
    }
  }

  /** Euclidean division is unique: any decomposition x == m*q + r with
      0 <= r < m is the one `/` and `%` compute. */
  lemma DivModUnique(x: int, m: int, q: int, r: int)
    requires m > 0 && x == m * q + r && 0 <= r < m
    ensures x / m == q && x % m == r
  {
    var q', r' := x / m, x % m;
    assert x == m * q' + r';
    if q > q' {
      assert m * q == m * q' + m * (q - q');
      MulAtLeast(m, q - q');
    } else if q < q' {
      assert m * q' == m * q + m * (q' - q);
      MulAtLeast(m, q' - q);
    }
  }

  /** Peeling the low bit off x: the remainder modulo 2p is twice the
      remainder of x/2 modulo p, plus the low bit. */
  lemma HalfStep(x: nat, p: nat)
    requires p >= 1
    ensures x % (2 * p) == 2 * ((x / 2) % p) + x % 2
  {
    var q, r := (x / 2) / p, (x / 2) % p;
    assert x / 2 == p * q + r;
    assert x == (2 * p) * q + (2 * r + x % 2);
    DivModUnique(x, 2 * p, q, 2 * r + x % 2);
  }

  /** Masking with the all-ones value 2^k - 1 is reduction modulo 2^k. */
  lemma {:induction false} LowMaskIsMod(x: nat, k: nat)
    ensures BitAnd(x, Pow2(k) - 1) == x % Pow2(k)
  {
    if k == 0 {
    } else if x == 0 {
    } else {
      var m := Pow2(k) - 1;
      var p := Pow2(k - 1);
      assert m % 2 == 1 && m / 2 == p - 1;
      LowMaskIsMod(x / 2, k - 1);
      HalfStep(x, p);
    }
  }

  /** Adding a multiple of m does not change the remainder modulo m. */
  lemma ModAddMultiple(x: int, m: int, k: int)
    requires m > 0
    ensures (x + m * k) % m == x % m
  {
    DivModUnique(x + m * k, m, x / m + k, x % m);
  }
}

=== FILE: client.dfy ===
/** The `client` class of ipcsocket/simple.cxx: a socket descriptor owned
    through the close-retry guard, a 512-byte buffer and a recorded size.

    As written, `set_data` copies at most 512 bytes but records the size it
    was given, so a later `get_data` with a large enough capacity copies past
    the end of the buffer. `SetData` and `GetData` model the code as written;
    `SetDataClamped` is the corrected `set_data` that records what it kept. */
module Client {
  import opened Sys

  type Byte = bv8

  /** `BUF_SIZE`. */
  const BufSize: nat := 512

  function Min(a: int, b: int): int {
    if a <= b then a else b
  }

  /** `socketfd`, `buf` and `size`. The buffer's initial bytes are
      indeterminate in C++; here they are whatever the caller supplies. */
  datatype Client = Client(socketFd: Fd, buf: seq<Byte>, size: nat)

  predicate Valid(c: Client) {
    |c.buf| == BufSize
  }

  /** `client(fd)`: owns `fd`, records size 0. */
  function NewClient(fd: Fd, initial: seq<Byte>): (c: Client)
    requires |initial| == BufSize
    ensures Valid(c) && c.size == 0
    ensures GetSocket(c) == fd
  {
    Client(fd, initial, 0)
  }

  /** `getsocket()`. */
  function GetSocket(c: Client): Fd {
    c.socketFd
  }

  /** `set_data(src, sz)` as written: copy `min(512, sz)` bytes to the front
      of the buffer and record `sz` itself. */
  function SetData(c: Client, src: seq<Byte>, sz: nat): (r: Client)
    requires Valid(c) && |src| >= Min(BufSize, sz)
    ensures Valid(r) && r.socketFd == c.socketFd && r.size == sz
    ensures var k := Min(BufSize, sz);
            r.buf[..k] == src[..k] && r.buf[k..] == c.buf[k..]
  {
    var k := Min(BufSize, sz);
    Client(c.socketFd, src[..k] + c.buf[k..], sz)
  }

  /** What `get_data(des, sz)` does: copy `min(sz, size)` bytes into the
      destination and report the recorded size back through `sz`; or read
      beyond the 512-byte buffer. */
  datatype Got = Got(dest: seq<Byte>, sz: nat) | OverRead(count: nat)

  /** `get_data(des, sz)`, where `cap` is the `sz` passed in (the capacity of
      `des`). */
  function GetData(c: Client, dest: seq<Byte>, cap: nat): (r: Got)
    requires Valid(c) && cap <= |dest|
    ensures r.OverRead? <==> Min(cap, c.size) > BufSize
    ensures r.Got? ==> && r.sz == c.size
                       && |r.dest| == |dest|
                       && var k := Min(cap, c.size);
                          r.dest[..k] == c.buf[..k] && r.dest[k..] == dest[k..]
  {
    var k := Min(cap, c.size);
    if k > BufSize then OverRead(k)
    else Got(c.buf[..k] + dest[k..], c.size)
  }

  /** Round trip: data of at most 512 bytes comes back unchanged, with its
      size, into any destination of at least that capacity. */
  lemma SetThenGet(c: Client, src: seq<Byte>, sz: nat, dest: seq<Byte>, cap: nat)
    requires Valid(c) && sz <= BufSize && |src| >= sz
    requires sz <= cap <= |dest|
    ensures GetData(SetData(c, src, sz), dest, cap) == Got(src[..sz] + dest[sz..], sz)
  {
    var r := SetData(c, src, sz);
    var g := GetData(r, dest, cap);
    assert g.dest[..sz] == r.buf[..sz] == src[..sz];
    assert g.dest == g.dest[..sz] + g.dest[sz..];
  }

  /** As written, 600 bytes set and read back with a 600-byte destination
      make `get_data` copy 600 bytes out of the 512-byte buffer. */
  lemma OversizedSetDataOverReads(c: Client, src: seq<Byte>, dest: seq<Byte>)
    requires Valid(c) && |src| == 600 && |dest| == 600
    ensures GetData(SetData(c, src, 600), dest, 600) == OverRead(600)
  {
  }

  /** The corrected `set_data`: copy `min(512, sz)` bytes and record that
      count, so the recorded size never exceeds the buffer. */
  function SetDataClamped(c: Client, src: seq<Byte>, sz: nat): (r: Client)
    requires Valid(c) && |src| >= Min(BufSize, sz)
    ensures Valid(r) && r.socketFd == c.socketFd && r.size <= BufSize
    ensures r.size == Min(BufSize, sz)
    ensures r.buf[..r.size] == src[..r.size] && r.buf[r.size..] == c.buf[r.size..]
  {
    var k := Min(BufSize, sz);
    Client(c.socketFd, src[..k] + c.buf[k..], k)
  }

  /** With the corrected `set_data`, `get_data` never reads past the buffer,
      and returns the bytes kept, truncated to the destination's capacity. */
  lemma ClampedSetThenGet(c: Client, src: seq<Byte>, sz: nat, dest: seq<Byte>, cap: nat)
    requires Valid(c) && |src| >= Min(BufSize, sz) && cap <= |dest|
    ensures var k := Min(cap, Min(BufSize, sz));
            GetData(SetDataClamped(c, src, sz), dest, cap) == Got(src[..k] + dest[k..], Min(BufSize, sz))
  {
    var r := SetDataClamped(c, src, sz);
    var k := Min(cap, r.size);
    var g := GetData(r, dest, cap);
    assert r.buf[..k] == r.buf[..r.size][..k];
    assert g.dest[..k] == src[..k];
    assert g.dest == g.dest[..k] + g.dest[k..];
  }
}

=== FILE: demo.dfy ===
/** The wait/dispatch loop of event/event_demo.cxx. The demo watches a
    timer, a signal descriptor, an eventfd fed by a helper thread, standard
    input and a listening socket, and logs one line per ready event. Only a
    SIGUSR2 record or a wait failure other than EINTR ends the loop, and the
    flag is only looked at before the next wait.

    What each `read` returns is an input carried by the ready event; the log
    line is modelled as a `Note` holding the values the `printf` shows. */
module Demo {
  import opened Sys

  /** `MAX_EVENTS` of the demo: the `epoll_wait` capacity. */
  const MaxEvents: nat := 10

  /** `BUF_SIZE` of the standard-input branch. */
  const BufSize: nat := 10

  const Nul: char := '\0'

  /** The descriptors the loop compares against (standard input is
      `STDIN_FILENO`). */
  datatype Fds = Fds(timerFd: Fd, sigFd: Fd, evFd: Fd, sockFd: Fd)

  /** What `read` on standard input returns: the bytes read, or -1 with errno. */
  datatype ReadResult = Bytes(data: seq<char>) | ReadError(errno: int)

  /** A ready event: its descriptor and what a read of it yields — the
      counter of a timer or eventfd, the `ssi_signo` of a signal record, the
      bytes of standard input. A branch uses only the reading it makes. */
  datatype Ready = Ready(fd: Fd, counter: nat, signo: int, input: ReadResult)

  /** One log line. */
  datatype Note =
    | TimerFired(value: nat)
    | ExitRequested(signo: int)
    | SignalLogged(signo: int)
    | ThreadWoke(value: nat)
    | Input(buf: seq<char>)
    | ClientClosed
    | Unknown
    | WaitError(errno: int)

  /** `read(STDIN_FILENO, buf, 10)` returns at most ten bytes. */
  predicate Sane(e: Ready) {
    e.input.Bytes? ==> |e.input.data| <= BufSize
  }

  /** The `ssize_t` that `read` returns. */
  function ReadCount(r: ReadResult): int {
    if r.Bytes? then |r.data| else -1
  }

  /** The effect of the three buffer statements of the standard-input branch
      as written: `memset(buf + n, 0, sizeof(buf) - n)` then
      `buf[sizeof(buf) - 1] = '\0'`. When `read` fails `n` is -1 and the
      `memset` starts one byte before the array. */
  datatype Fill = Filled(buf: seq<char>) | WroteBefore(index: int)

  function FillAsWritten(r: ReadResult): (f: Fill)
    requires r.Bytes? ==> |r.data| <= BufSize
    ensures f.WroteBefore? <==> ReadCount(r) < 0
    ensures f.WroteBefore? ==> f.index == -1
    ensures f.Filled? ==> |f.buf| == BufSize && f.buf[BufSize - 1] == Nul
  {
    var n := ReadCount(r);
    if n < 0 then WroteBefore(n)
    else Filled((r.data + seq(BufSize - n, _ => Nul))[BufSize - 1 := Nul])
  }

  /** How many bytes a read contributes when a failed read counts as none. */
  function Received(r: ReadResult): (n: nat)
    ensures ReadCount(r) >= 0 ==> n == ReadCount(r)
  {
    if r.Bytes? then |r.data| else 0
  }

  /** The standard-input buffer with a failed read treated as zero bytes:
      NUL-terminated, the first bytes read (at most nine of them) visible,
      NUL everywhere after. */
  function FillStdin(r: ReadResult): (buf: seq<char>)
    requires r.Bytes? ==> |r.data| <= BufSize
    ensures |buf| == BufSize && buf[BufSize - 1] == Nul
    ensures var k := if Received(r) < BufSize - 1 then Received(r) else BufSize - 1;
            && (forall i :: 0 <= i < k ==> buf[i] == r.data[i])
            && (forall i :: k <= i < BufSize ==> buf[i] == Nul)
  {
    var data := if r.Bytes? then r.data else [];
    (data + seq(BufSize - |data|, _ => Nul))[BufSize - 1 := Nul]
  }

  /** The two agree whenever the read succeeds. */
  lemma FillAgreesOnSuccess(r: ReadResult)
    requires r.Bytes? && |r.data| <= BufSize
    ensures FillAsWritten(r) == Filled(FillStdin(r))
  {
  }

  /** A non-blocking `read` that fails with EAGAIN (11) makes the code as
      written write before the buffer. */
  lemma FailedReadWritesBefore()
    ensures FillAsWritten(ReadError(11)) == WroteBefore(-1)
    ensures FillStdin(ReadError(11)) == seq(BufSize, _ => Nul)
  {
    var b := FillStdin(ReadError(11));
    assert forall i :: 0 <= i < BufSize ==> b[i] == Nul;
  }

  /** One event through the `if`/`else if` chain: the first descriptor it
      equals picks the branch, in the order timer, signal, eventfd, standard
      input, socket, and anything else is unknown. Only a SIGUSR2 record on
      the signal descriptor requests the exit. */
  function Handle(d: Fds, e: Ready): (note: Note)
    requires Sane(e)
    ensures note.ExitRequested? <==> e.fd != d.timerFd && e.fd == d.sigFd && e.signo == SIGUSR2
    ensures note.SignalLogged? <==> e.fd != d.timerFd && e.fd == d.sigFd && e.signo != SIGUSR2
    ensures note.Unknown? <==> e.fd !in {d.timerFd, d.sigFd, d.evFd, STDIN_FILENO, d.sockFd}
    ensures !note.WaitError?
    ensures e.fd == d.timerFd ==> note == TimerFired(e.counter)
    ensures e.fd !in {d.timerFd, d.sigFd} && e.fd == d.evFd ==> note == ThreadWoke(e.counter)
    ensures e.fd !in {d.timerFd, d.sigFd, d.evFd} && e.fd == STDIN_FILENO ==> note == Input(FillStdin(e.input))
    ensures e.fd !in {d.timerFd, d.sigFd, d.evFd, STDIN_FILENO} && e.fd == d.sockFd ==> note == ClientClosed
  {
    if e.fd == d.timerFd then TimerFired(e.counter)
    else if e.fd == d.sigFd then
      (if e.signo == SIGUSR2 then ExitRequested(e.signo) else SignalLogged(e.signo))
    else if e.fd == d.evFd then ThreadWoke(e.counter)
    else if e.fd == STDIN_FILENO then Input(FillStdin(e.input))
    else if e.fd == d.sockFd then ClientClosed
    else Unknown
  }

  /** With distinct descriptors, the branch is the one named by the event's
      descriptor. */
  lemma BranchByIdentity(d: Fds, e: Ready)
    requires Sane(e)
    requires |{d.timerFd, d.sigFd, d.evFd, STDIN_FILENO, d.sockFd}| == 5
    ensures Handle(d, e).TimerFired? <==> e.fd == d.timerFd
    ensures Handle(d, e).ExitRequested? || Handle(d, e).SignalLogged? <==> e.fd == d.sigFd
    ensures Handle(d, e).ThreadWoke? <==> e.fd == d.evFd
    ensures Handle(d, e).Input? <==> e.fd == STDIN_FILENO
    ensures Handle(d, e).ClientClosed? <==> e.fd == d.sockFd
  {
  }

  /** The `for` over one batch: every event, in index order, gets exactly
      one note, even after the exit was requested; `stop` ends up set when it
      was set before or some event of the batch requested the exit. */
  function DemoBatch(d: Fds, stop: bool, batch: seq<Ready>): (r: (bool, seq<Note>))
    requires forall i :: 0 <= i < |batch| ==> Sane(batch[i])
    ensures |r.1| == |batch|
    ensures forall i :: 0 <= i < |batch| ==> r.1[i] == Handle(d, batch[i])
    ensures r.0 <==> stop || exists i :: 0 <= i < |batch| && Handle(d, batch[i]).ExitRequested?
    decreases |batch|
  {
    if batch == [] then (stop, [])
    else
      var note := Handle(d, batch[0]);
      var rest := DemoBatch(d, stop || note.ExitRequested?, batch[1..]);
      assert forall i :: 1 <= i < |batch| ==> batch[i] == batch[1..][i - 1];
      (rest.0, [note] + rest.1)
  }

  /** What one `epoll_wait` gives: a batch, or -1 with errno. */
  datatype Wait = Batch(events: seq<Ready>) | WaitFailed(errno: int)

  predicate Possible(waits: seq<Wait>) {
    forall i :: 0 <= i < |waits| && waits[i].Batch? ==>
      && |waits[i].events| <= MaxEvents
      && forall j :: 0 <= j < |waits[i].events| ==> Sane(waits[i].events[j])
  }

  /** One pass of the loop body: dispatch the batch, or, on a failed wait,
      set `stop` unless the failure was EINTR. */
  function Iterate(d: Fds, stop: bool, w: Wait): (r: (bool, seq<Note>))
    requires w.Batch? ==> forall j :: 0 <= j < |w.events| ==> Sane(w.events[j])
    ensures w.WaitFailed? ==> r.0 == (stop || w.errno != EINTR)
    ensures w.WaitFailed? ==> (r.1 == [] <==> w.errno == EINTR)
    ensures w.Batch? ==> r == DemoBatch(d, stop, w.events)
  {
    match w
    case Batch(events) => DemoBatch(d, stop, events)
    case WaitFailed(errno) =>
      if errno != EINTR then (true, [WaitError(errno)]) else (stop, [])
  }

  datatype DemoResult = DemoResult(stop: bool, notes: seq<Note>, waits: nat)

  /** `while(!stop)`: the flag is checked before each wait and nowhere else.
      The loop only stops waiting once `stop` is set; when it waits at all,
      the log starts with what the first wait produced. */
  function DemoRun(d: Fds, stop: bool, waits: seq<Wait>): (r: DemoResult)
    requires Possible(waits)
    ensures r.waits <= |waits|
    ensures r.waits < |waits| ==> r.stop
    ensures stop ==> r == DemoResult(true, [], 0)
    ensures !stop && waits != [] ==> 1 <= r.waits && Iterate(d, stop, waits[0]).1 <= r.notes
    decreases |waits|
  {
    if stop || waits == [] then DemoResult(stop, [], 0)
    else
      var next := waits[1..];
      assert Possible(next) by {
        forall i | 0 <= i < |next| ensures next[i] == waits[i + 1] { }
      }
      var it := Iterate(d, stop, waits[0]);
      var rest := DemoRun(d, it.0, next);
      assert it.1 <= it.1 + rest.notes;
      DemoResult(rest.stop, it.1 + rest.notes, rest.waits + 1)
  }

  lemma PossibleConcat(a: seq<Wait>, b: seq<Wait>)
    requires Possible(a) && Possible(b)
    ensures Possible(a + b)
  {
    forall i | 0 <= i < |a + b| && (a + b)[i].Batch?
      ensures |(a + b)[i].events| <= MaxEvents
      ensures forall j :: 0 <= j < |(a + b)[i].events| ==> Sane((a + b)[i].events[j])
    {
      if i >= |a| { assert (a + b)[i] == b[i - |a|]; }
    }
  }

  /** The loop from a clear flag over a non-empty script: one pass, then
      the rest of the script. */
  lemma DemoRunHead(d: Fds, waits: seq<Wait>)
    requires Possible(waits) && waits != []
    ensures Possible(waits[1..])
    ensures var it := Iterate(d, false, waits[0]);
            var rest := DemoRun(d, it.0, waits[1..]);
            DemoRun(d, false, waits) == DemoResult(rest.stop, it.1 + rest.notes, rest.waits + 1)
  {
    var next := waits[1..];
    assert Possible(next) by {
      forall i | 0 <= i < |next| ensures next[i] == waits[i + 1] { }
    }
  }

  /** Waits that leave the loop running compose: the run over them followed
      by more waits logs their notes, then the notes of the rest, and counts
      every one of their waits. */
  lemma {:induction false} DemoRunSplit(d: Fds, pre: seq<Wait>, post: seq<Wait>)
    requires Possible(pre) && Possible(post)
    requires !DemoRun(d, false, pre).stop
    ensures Possible(pre + post)
    ensures var a := DemoRun(d, false, pre);
            var b := DemoRun(d, false, post);
            DemoRun(d, false, pre + post) == DemoResult(b.stop, a.notes + b.notes, |pre| + b.waits)
    decreases |pre|
  {
    PossibleConcat(pre, post);
    if pre == [] {
      assert pre + post == post;
    } else {
      var ws := pre + post;
      var it := Iterate(d, false, pre[0]);
      var a := DemoRun(d, false, pre[1..]);
      var b := DemoRun(d, false, post);
      assert Possible(pre[1..]) && !it.0 && DemoRun(d, false, pre) == DemoResult(a.stop, it.1 + a.notes, a.waits + 1) by {
        DemoRunHead(d, pre);
      }
      assert ws[0] == pre[0] && ws[1..] == pre[1..] + post;
      assert DemoRun(d, false, ws) == DemoResult(DemoRun(d, false, pre[1..] + post).stop, it.1 + DemoRun(d, false, pre[1..] + post).notes, DemoRun(d, false, pre[1..] + post).waits + 1) by {
        DemoRunHead(d, ws);
      }
      DemoRunSplit(d, pre[1..], post);
      ConcatAssoc(it.1, a.notes, b.notes);
    }
  }

  /** A SIGUSR2 batch after waits that kept the loop running: the loop makes
      exactly one more wait, logs the earlier notes then every note of that
      batch, and stops. */
  lemma ExitAfterRunning(d: Fds, pre: seq<Wait>, batch: seq<Ready>, k: nat, rest: seq<Wait>)
    requires Possible(pre) && !DemoRun(d, false, pre).stop
    requires k < |batch| <= MaxEvents
    requires forall i :: 0 <= i < |batch| ==> Sane(batch[i])
    requires Possible(rest)
    requires batch[k].fd != d.timerFd && batch[k].fd == d.sigFd && batch[k].signo == SIGUSR2
    ensures Possible(pre + ([Batch(batch)] + rest))
    ensures var r := DemoRun(d, false, pre + ([Batch(batch)] + rest));
            && r.stop && r.waits == |pre| + 1
            && r.notes == DemoRun(d, false, pre).notes + DemoBatch(d, false, batch).1
  {
    ExitFinishesBatch(d, batch, k, rest);
    DemoRunSplit(d, pre, [Batch(batch)] + rest);
    var tail := DemoRun(d, false, [Batch(batch)] + rest);
    assert tail.notes == DemoBatch(d, false, batch).1;
  }

  /** A wait failure other than EINTR logs one error and ends the loop; an
      interrupted wait is retried with nothing logged. */
  lemma WaitFailureRule(d: Fds, errno: int, rest: seq<Wait>)
    requires Possible(rest)
    ensures Possible([WaitFailed(errno)] + rest)
    ensures errno != EINTR ==> DemoRun(d, false, [WaitFailed(errno)] + rest) == DemoResult(true, [WaitError(errno)], 1)
    ensures errno == EINTR ==> var r := DemoRun(d, false, rest);
                               DemoRun(d, false, [WaitFailed(errno)] + rest) == r.(waits := r.waits + 1)
  {
    var ws := [WaitFailed(errno)] + rest;
    assert ws[1..] == rest;
    assert Possible(ws) by {
      forall i | 0 <= i < |ws| && ws[i].Batch? ensures |ws[i].events| <= MaxEvents {
        assert ws[i] == rest[i - 1];
      }
    }
  }

  /** A batch that requests the exit is dispatched to its end, and the loop
      then makes no further wait. */
  lemma ExitFinishesBatch(d: Fds, batch: seq<Ready>, k: nat, rest: seq<Wait>)
    requires k < |batch| <= MaxEvents
    requires forall i :: 0 <= i < |batch| ==> Sane(batch[i])
    requires Possible(rest)
    requires batch[k].fd != d.timerFd && batch[k].fd == d.sigFd && batch[k].signo == SIGUSR2
    ensures Possible([Batch(batch)] + rest)
    ensures var r := DemoRun(d, false, [Batch(batch)] + rest);
            && r.stop && r.waits == 1 && |r.notes| == |batch|
            && forall i :: 0 <= i < |batch| ==> r.notes[i] == Handle(d, batch[i])
  {
    var ws := [Batch(batch)] + rest;
    assert ws[1..] == rest;
    assert Possible(ws) by {
      forall i | 0 <= i < |ws| && ws[i].Batch?
        ensures |ws[i].events| <= MaxEvents
        ensures forall j :: 0 <= j < |ws[i].events| ==> Sane(ws[i].events[j])
      {
        if i > 0 { assert ws[i] == rest[i - 1]; }
      }
    }
    assert Handle(d, batch[k]).ExitRequested?;
    var it := DemoBatch(d, false, batch);
    assert it.0;
    assert DemoRun(d, false, ws).notes == it.1 + [];
  }
}

=== FILE: eventloop.dfy ===
/** `linux::event::event_loop` of event/include/event.hxx and event/event.cxx:
    the reactor variant that owns its triggers. `register_trigger` moves the
    trigger into a table of uniquely owned entries and hands a deferred
    `do_register` call to `async_call`; `operator()` is the wait loop.

    That loop only drains readiness: it never runs a deferred call, so a
    trigger registered here never reaches the interest list. `async_call` and
    `do_register` are declared without a definition, so the model records
    each call handed to `async_call` in `pending` and gives it no effect. */
module EventLoop {
  import opened Sys
  import opened Trigger
  import Reactor

  /** A deferred `std::bind(event_loop::do_register, epollfd, ev)`. */
  datatype Registration = DoRegister(fd: Fd, events: int)

  datatype Loop = Loop(
    epollFd: Fd, asyncFd: Fd, sigFd: Fd,
    triggers: map<Fd, TimerTrigger>,
    pending: seq<Registration>,
    interest: map<Fd, int>,
    exit: bool)

  /** Results of the kernel calls the constructor makes, in its order. */
  datatype LoopSetup = LoopSetup(
    epoll: Created, eventfd: Created, signalfd: Created,
    watchSignal: Status, watchWakeup: Status)
  {
    /** The same calls as the threaded reactor's constructor, with no thread
        to start. */
    function AsThreadSetup(): Reactor.ThreadSetup {
      Reactor.ThreadSetup(epoll, eventfd, signalfd, watchSignal, watchWakeup, 0)
    }
  }

  /** The descriptors the constructor obtained, in its order (-1 for a step
      it did not reach or that failed). */
  function Acquired(setup: LoopSetup): seq<Fd> {
    Reactor.Acquired(setup.AsThreadSetup())
  }

  /** The constructor: the acquisitions of the threaded reactor, in the same
      order and with the same guards, throwing `event_loop_exception`; `exit`
      starts false. */
  function NewLoop(setup: LoopSetup): (r: Construction<Loop>)
    ensures r.Built? <==> && setup.epoll.Opened? && setup.eventfd.Opened? && setup.signalfd.Opened?
                          && setup.watchSignal.Done? && setup.watchWakeup.Done?
    ensures r.Built? ==> && r.value.epollFd == setup.epoll.fd
                         && r.value.asyncFd == setup.eventfd.fd
                         && r.value.sigFd == setup.signalfd.fd
    ensures r.Built? ==> && r.value.interest == map[r.value.sigFd := EPOLLIN, r.value.asyncFd := EPOLLIN]
                         && r.value.triggers == map[] && r.value.pending == [] && !r.value.exit
                         && ReleasedOnce(Acquired(setup), [], [r.value.epollFd, r.value.asyncFd, r.value.sigFd])
    ensures r.Thrown? ==> ReleasedOnce(Acquired(setup), r.closed, [])
    ensures setup.epoll.CreateFailed? ==> r.Thrown? && r.errno == setup.epoll.errno
    ensures (setup.epoll.Opened? && setup.eventfd.CreateFailed?) ==> r.Thrown? && r.errno == setup.eventfd.errno
    ensures (&& setup.epoll.Opened? && setup.eventfd.Opened?
             && setup.signalfd.CreateFailed?) ==> r.Thrown? && r.errno == setup.signalfd.errno
    ensures (&& setup.epoll.Opened? && setup.eventfd.Opened? && setup.signalfd.Opened?
             && setup.watchSignal.Failed?) ==> r.Thrown? && r.errno == setup.watchSignal.errno
    ensures (&& setup.epoll.Opened? && setup.eventfd.Opened? && setup.signalfd.Opened?
             && setup.watchSignal.Done? && setup.watchWakeup.Failed?) ==> r.Thrown? && r.errno == setup.watchWakeup.errno
  {
    var t := Reactor.NewThread(setup.AsThreadSetup());
    Reactor.NewThreadReleasesOnce(setup.AsThreadSetup());
    match t
    case Thrown(errno, closed) => Thrown(errno, closed)
    case Built(th) => Built(Loop(th.epollFd, th.asyncFd, th.sigFd, map[], [], th.interest, false))
  }

  /** What `register_trigger` leaves: the loop, the caller's moved-from
      trigger, and the descriptors closed when the new table entry was
      refused and destroyed. */
  datatype Registered = Registered(loop: Loop, source: TimerTrigger, closed: seq<Fd>)

  /** `register_trigger(std::move(t))`: build the epoll event from
      `native_handle()` and `get_events()`, move the trigger into a fresh
      `unique_ptr`, insert it under its descriptor (if the key is taken the
      pair is dropped and the new trigger destroyed), then hand the deferred
      `do_register` to `async_call`. The interest list is not touched. */
  function RegisterTrigger(l: Loop, t: TimerTrigger): (r: Registered)
    ensures r.loop.pending == l.pending + [DoRegister(t.fd, t.events)]
    ensures r.loop.interest == l.interest && r.loop.exit == l.exit
    ensures r.loop == l.(triggers := r.loop.triggers, pending := r.loop.pending)
    ensures t.fd in l.triggers ==> r.loop.triggers == l.triggers
    ensures t.fd !in l.triggers ==> && r.loop.triggers.Keys == l.triggers.Keys + {t.fd}
                                    && r.loop.triggers[t.fd].AsTrigger() == t.AsTrigger()
                                    && (forall fd :: fd in l.triggers ==> r.loop.triggers[fd] == l.triggers[fd])
    ensures !r.source.owns
    ensures Closes(r.source) + r.closed
            + (if t.fd in l.triggers then [] else Closes(r.loop.triggers[t.fd])) == Closes(t)
  {
    var ev := DoRegister(t.fd, t.events);
    var (moved, source) := Move(t);
    var fd := ev.fd;
    var kept := fd !in l.triggers;
    var triggers := if kept then l.triggers[fd := moved] else l.triggers;
    var closed := if kept then [] else Closes(moved);
    Registered(l.(triggers := triggers, pending := l.pending + [ev]), source, closed)
  }

  /** One ready descriptor in `operator()`: the wakeup descriptor and any
      other descriptor are read and the value discarded; the signal
      descriptor sets `exit`. Nothing runs and nothing else changes. */
  function LoopDispatch(l: Loop, fd: Fd): (r: (Loop, seq<Reactor.Action>))
    ensures r.0 == l.(exit := r.0.exit)
    ensures r.0.exit <==> l.exit || (fd == l.sigFd && fd != l.asyncFd)
    ensures r.1 == (if fd == l.sigFd && fd != l.asyncFd then [Reactor.Shutdown] else [Reactor.Drained(fd)])
  {
    if fd == l.asyncFd then (l, [Reactor.Drained(fd)])
    else if fd == l.sigFd then (l.(exit := true), [Reactor.Shutdown])
    else (l, [Reactor.Drained(fd)])
  }

  /** Only reads and the shutdown flag: no handler and no deferred call runs. */
  predicate Passive(trace: seq<Reactor.Action>) {
    forall i :: 0 <= i < |trace| ==> trace[i].Drained? || trace[i].Shutdown?
  }

  /** The `for` over one batch, in index order. It leaves the table, the
      deferred calls and the interest list alone, only reads, and sets `exit`
      exactly when the signal descriptor (distinct from the wakeup one) is in
      the batch. */
  function LoopBatch(l: Loop, batch: seq<Fd>): (r: (Loop, seq<Reactor.Action>))
    ensures r.0 == l.(exit := r.0.exit)
    ensures r.0.exit == (l.exit || (l.sigFd in batch && l.sigFd != l.asyncFd))
    ensures Passive(r.1) && |r.1| == |batch|
    decreases |batch|
  {
    if batch == [] then (l, [])
    else
      var first := LoopDispatch(l, batch[0]);
      var rest := LoopBatch(first.0, batch[1..]);
      PassiveConcat(first.1, rest.1);
      assert l.sigFd in batch <==> batch[0] == l.sigFd || l.sigFd in batch[1..];
      (rest.0, first.1 + rest.1)
  }

  lemma PassiveConcat(a: seq<Reactor.Action>, b: seq<Reactor.Action>)
    requires Passive(a) && Passive(b)
    ensures Passive(a + b)
  {
    forall i | 0 <= i < |a + b| ensures (a + b)[i].Drained? || (a + b)[i].Shutdown? {
      if i >= |a| { assert (a + b)[i] == b[i - |a|]; }
    }
  }

  datatype LoopResult = LoopResult(loop: Loop, trace: seq<Reactor.Action>, waits: nat)

  /** `operator()`: `while(!exit)` wait, then dispatch the batch; a failed
      wait yields no events and the loop waits again. Whatever the waits
      report, the table, the deferred calls and the interest list stay as
      they were and the trace holds only discarded reads and the shutdown. */
  function LoopRun(l: Loop, waits: seq<Reactor.Wait>): (r: LoopResult)
    requires Reactor.Bounded(waits)
    ensures r.loop == l.(exit := r.loop.exit)
    ensures Passive(r.trace)
    ensures r.waits <= |waits|
    ensures r.waits < |waits| ==> r.loop.exit
    ensures l.exit ==> r.waits == 0 && r.trace == []
    ensures !l.exit && waits != [] ==> 1 <= r.waits
    ensures r.loop.exit ==> l.exit || (l.sigFd != l.asyncFd && exists i :: 0 <= i < |waits| && waits[i].Ready? && l.sigFd in waits[i].batch)
    decreases |waits|
  {
    if l.exit || waits == [] then LoopResult(l, [], 0)
    else
      var next := waits[1..];
      Reactor.BoundedTail(waits);
      assert forall i :: 0 <= i < |next| ==> next[i] == waits[i + 1];
      match waits[0]
      case WaitFailed(_) =>
        var rest := LoopRun(l, next);
        rest.(waits := rest.waits + 1)
      case Ready(batch) =>
        var b := LoopBatch(l, batch);
        var rest := LoopRun(b.0, next);
        PassiveConcat(b.1, rest.trace);
        LoopResult(rest.loop, b.1 + rest.trace, rest.waits + 1)
  }

  /** One turn of `operator()` on a batch: the batch is read through in
      full, and a batch that reports the signal descriptor is the last wait. */
  lemma LoopShutdownStops(l: Loop, batch: seq<Fd>, rest: seq<Reactor.Wait>)
    requires !l.exit && Reactor.Bounded([Reactor.Ready(batch)] + rest)
    ensures var b := LoopBatch(l, batch);
            && b.1 <= LoopRun(l, [Reactor.Ready(batch)] + rest).trace
            && (b.0.exit ==> LoopRun(l, [Reactor.Ready(batch)] + rest) == LoopResult(b.0, b.1, 1))
  {
    var ws := [Reactor.Ready(batch)] + rest;
    assert ws[0] == Reactor.Ready(batch) && ws[1..] == rest;
    Reactor.BoundedTail(ws);
    var b := LoopBatch(l, batch);
    var r := LoopRun(b.0, rest);
    assert b.1 <= b.1 + r.trace;
    assert b.0.exit ==> b.1 + r.trace == b.1;
  }

  /** A trigger registered with `event_loop` never reaches the interest list
      however long the loop runs: its deferred `do_register` stays pending. */
  lemma RegisteredTriggerNeverWatched(l: Loop, t: TimerTrigger, waits: seq<Reactor.Wait>)
    requires Reactor.Bounded(waits) && t.fd !in l.interest
    ensures var r := RegisterTrigger(l, t);
            && t.fd !in LoopRun(r.loop, waits).loop.interest
            && DoRegister(t.fd, t.events) in LoopRun(r.loop, waits).loop.pending
  {
    var r := RegisterTrigger(l, t);
    assert r.loop.pending[|l.pending|] == DoRegister(t.fd, t.events);
  }
}

=== FILE: queue.dfy ===
/** The bounded ring buffers of queue/include/queue.hxx: `sr_sw_queue` (one
    reader, one writer) and `sr_mw_queue` (one reader, writers serialised by a
    spin lock). Both are a fixed array of 65536 pointer slots and two
    free-running 64-bit counters; the occupancy is their difference and a
    counter addresses slot `pos & (size - 1)`.

    The model is sequential. Counters are unsigned 64-bit values and wrap
    around explicitly; because 2^64 is a multiple of 65536 the wrap is
    invisible to the slot index, and the FIFO contract holds across it. */
module Queue {
  import opened Bits

  const BufferSize: nat := 65536
  const U64Size: nat := 0x1_0000_0000_0000_0000

  type U64 = x: int | 0 <= x < U64Size

  /** The shared state of both queues. `slots` is `circular_buffer`. */
  datatype Ring<T> = Ring(slots: seq<T>, readerPos: U64, writerPos: U64)

  /** `++pos` on a `std::uint64_t`. */
  function Inc(pos: U64): U64 {
    if pos == U64Size - 1 then 0 else pos + 1
  }

  /** `pos + n` on a `std::uint64_t`, for an offset below 2^64. */
  function Advance(pos: U64, n: nat): U64
    requires n < U64Size
  {
    if pos + n < U64Size then pos + n else pos + n - U64Size
  }

  /** `count()`: `writer_pos - reader_pos` in unsigned 64-bit arithmetic,
      that is, the difference reduced modulo 2^64. */
  function Count<T>(q: Ring<T>): (r: U64)
    ensures r == (q.writerPos - q.readerPos) % U64Size
  {
    if q.writerPos >= q.readerPos then q.writerPos - q.readerPos
    else q.writerPos - q.readerPos + U64Size
  }

  /** 65536 is 2^16, so `buffer_size - 1` is the all-ones 16-bit mask. */
  lemma BufferSizeIsPow2()
    ensures Pow2(16) == BufferSize
  {
    assert Pow2(0) == 1;
    assert Pow2(1) == 2;
    assert Pow2(2) == 4;
    assert Pow2(3) == 8;
    assert Pow2(4) == 16;
    assert Pow2(5) == 32;
    assert Pow2(6) == 64;
    assert Pow2(7) == 128;
    assert Pow2(8) == 256;
    assert Pow2(9) == 512;
    assert Pow2(10) == 1024;
    assert Pow2(11) == 2048;
    assert Pow2(12) == 4096;
    assert Pow2(13) == 8192;
    assert Pow2(14) == 16384;
    assert Pow2(15) == 32768;
    assert Pow2(16) == 65536;
  }

  /** The slot a counter addresses, `pos & (buffer_size - 1)`; because the
      size is a power of two this is the counter modulo the size. */
  function Slot(pos: U64): (i: nat)
    ensures i < BufferSize
    ensures i == pos % BufferSize
  {
    BufferSizeIsPow2();
    LowMaskIsMod(pos, 16);
    BitAnd(pos, BufferSize - 1)
  }

  /** The class invariant: the array has its fixed size and the counters are
      never more than a full buffer apart. */
  predicate Valid<T>(q: Ring<T>) {
    |q.slots| == BufferSize && Count(q) <= BufferSize
  }

  /** The pointers the queue holds, oldest first. */
  ghost function Contents<T>(q: Ring<T>): (s: seq<T>)
    requires Valid(q)
    ensures |s| == Count(q)
  {
    seq(Count(q), i requires 0 <= i < Count(q) => q.slots[Slot(Advance(q.readerPos, i))])
  }

  /** The constructor: both counters zero and every slot holding `nil` (the null pointer). */
  function Empty<T>(nil: T): (q: Ring<T>)
    ensures Valid(q) && Contents(q) == []
    ensures q.slots == seq(BufferSize, _ => nil)
  {
    Ring(seq(BufferSize, _ => nil), 0, 0)
  }

  datatype Added<S> = Added(ok: bool, state: S)
  datatype Removed<S, T> = Removed(ok: bool, p: T, state: S)

  /** `sr_sw_queue::add`: refuse when full, otherwise store `p` in the slot
      the writer counter addresses and advance that counter. */
  function Add<T>(q: Ring<T>, p: T): (r: Added<Ring<T>>)
    requires Valid(q)
    ensures Valid(r.state)
    ensures r.ok <==> Count(q) < BufferSize
    ensures !r.ok ==> r.state == q
    ensures r.ok ==> && r.state.slots == q.slots[q.writerPos % BufferSize := p]
                     && r.state.writerPos == (q.writerPos + 1) % U64Size
                     && r.state.readerPos == q.readerPos
    ensures r.ok ==> Contents(r.state) == Contents(q) + [p]
  {
    if Count(q) == BufferSize then Added(false, q)
    else
      var write := Slot(q.writerPos);
      var q' := Ring(q.slots[write := p], q.readerPos, Inc(q.writerPos));
      AddAppends(q, p, q');
      Added(true, q')
  }

  /** `sr_sw_queue::remove`: refuse when empty, leaving `p` as it was;
      otherwise load the slot the reader counter addresses and advance it. */
  function Remove<T>(q: Ring<T>, p: T): (r: Removed<Ring<T>, T>)
    requires Valid(q)
    ensures Valid(r.state)
    ensures r.ok <==> Count(q) > 0
    ensures !r.ok ==> r.p == p && r.state == q
    ensures r.ok ==> && r.p == q.slots[q.readerPos % BufferSize]
                     && r.state.readerPos == (q.readerPos + 1) % U64Size
                     && r.state.writerPos == q.writerPos
                     && r.state.slots == q.slots
    ensures r.ok ==> r.p == Contents(q)[0] && Contents(r.state) == Contents(q)[1..]
  {
    if Count(q) == 0 then Removed(false, p, q)
    else
      var read := Slot(q.readerPos);
      var q' := Ring(q.slots, Inc(q.readerPos), q.writerPos);
      RemovePops(q, q');
      Removed(true, q.slots[read], q')
  }

  /** Two positions less than a buffer apart land in different slots. */
  lemma DistinctSlots(a: int, d: int)
    requires 0 < d < BufferSize
    ensures a % BufferSize != (a + d) % BufferSize
  {
    var qa, ra := a / BufferSize, a % BufferSize;
    if ra + d < BufferSize {
      DivModUnique(a + d, BufferSize, qa, ra + d);
    } else {
      DivModUnique(a + d, BufferSize, qa + 1, ra + d - BufferSize);
    }
  }

  /** Wrapping a counter at 2^64 does not move its slot. */
  lemma SlotOfAdvance(pos: U64, n: nat)
    requires n < U64Size
    ensures Slot(Advance(pos, n)) == (pos + n) % BufferSize
  {
    if pos + n >= U64Size {
      ModAddMultiple(pos + n, BufferSize, -(U64Size / BufferSize));
    }
  }

  lemma AddAppends<T>(q: Ring<T>, p: T, q': Ring<T>)
    requires Valid(q) && Count(q) < BufferSize
    requires q' == Ring(q.slots[Slot(q.writerPos) := p], q.readerPos, Inc(q.writerPos))
    ensures Valid(q') && Count(q') == Count(q) + 1
    ensures Contents(q') == Contents(q) + [p]
  {
    var c := Count(q);
    assert Advance(q.readerPos, c) == q.writerPos;
    SlotOfAdvance(q.readerPos, c);
    forall i | 0 <= i < c
      ensures Contents(q')[i] == Contents(q)[i]
    {
      SlotOfAdvance(q.readerPos, i);
      DistinctSlots(q.readerPos + i, c - i);
    }
    assert Contents(q')[c] == p;
  }

  lemma RemovePops<T>(q: Ring<T>, q': Ring<T>)
    requires Valid(q) && Count(q) > 0
    requires q' == Ring(q.slots, Inc(q.readerPos), q.writerPos)
    ensures Valid(q') && Count(q') == Count(q) - 1
    ensures Contents(q)[0] == q.slots[Slot(q.readerPos)]
    ensures Contents(q') == Contents(q)[1..]
  {
    assert Advance(q.readerPos, 0) == q.readerPos;
    forall i | 0 <= i < Count(q')
      ensures Contents(q')[i] == Contents(q)[i + 1]
    {
      assert Advance(Inc(q.readerPos), i) == Advance(q.readerPos, i + 1);
    }
  }

  /** One step of a producer or the consumer of queue/queue_test.cxx. */
  datatype Op<T> = Produce(p: T) | Consume

  /** What a run of operations leaves behind: the final queue, the consumer's
      pointer variable, and the pointers actually added and removed. */
  datatype Trace<T> = Trace(state: Ring<T>, p: T, produced: seq<T>, consumed: seq<T>)

  /** Apply `ops` in order; `p` is the consumer's `T*&` out-parameter.
      Nothing is lost or reordered: what was in the queue followed by what was
      added equals what was removed followed by what is still in the queue. */
  function Replay<T>(q: Ring<T>, p: T, ops: seq<Op<T>>): (t: Trace<T>)
    requires Valid(q)
    ensures Valid(t.state)
    ensures Contents(q) + t.produced == t.consumed + Contents(t.state)
    decreases |ops|
  {
    if ops == [] then Trace(q, p, [], [])
    else match ops[0]
      case Produce(x) =>
        var a := Add(q, x);
        var t := Replay(a.state, p, ops[1..]);
        var added := if a.ok then [x] else [];
        AppendStep(Contents(q), added, Contents(a.state), t.produced, t.consumed, Contents(t.state));
        Trace(t.state, t.p, added + t.produced, t.consumed)
      case Consume =>
        var r := Remove(q, p);
        var t := Replay(r.state, r.p, ops[1..]);
        var removed := if r.ok then [r.p] else [];
        assert Contents(q) == removed + Contents(r.state);
        PopStep(Contents(q), removed, Contents(r.state), t.produced, t.consumed, Contents(t.state));
        Trace(t.state, t.p, t.produced, removed + t.consumed)
  }

  /** Conservation survives an add: what was added joins the produced side. */
  lemma AppendStep<T>(c: seq<T>, added: seq<T>, c': seq<T>, prod: seq<T>, cons: seq<T>, last: seq<T>)
    requires c' == c + added && c' + prod == cons + last
    ensures c + (added + prod) == cons + last
  {
    assert c + (added + prod) == (c + added) + prod;
  }

  /** Conservation survives a remove: what was removed joins the consumed side. */
  lemma PopStep<T>(c: seq<T>, removed: seq<T>, c': seq<T>, prod: seq<T>, cons: seq<T>, last: seq<T>)
    requires c == removed + c' && c' + prod == cons + last
    ensures c + prod == (removed + cons) + last
  {
    assert c + prod == removed + (c' + prod);
    assert removed + (cons + last) == (removed + cons) + last;
  }

  /** FIFO: starting from a fresh queue, the pointers removed are a prefix of
      the pointers added, in the same order. */
  lemma FifoFromEmpty<T>(nil: T, p: T, ops: seq<Op<T>>)
    ensures var t := Replay(Empty(nil), p, ops);
            t.consumed <= t.produced
  {
    var t := Replay(Empty(nil), p, ops);
    assert t.produced == t.consumed + Contents(t.state);
    assert t.produced[..|t.consumed|] == t.consumed;
  }

  /** `sr_mw_queue`: the same ring plus the writers' spin-lock word. */
  datatype MwRing<T> = MwRing(ring: Ring<T>, writerLock: U64)

  function MwEmpty<T>(nil: T): (q: MwRing<T>)
    ensures Valid(q.ring) && Contents(q.ring) == [] && q.writerLock == 0
  {
    MwRing(Empty(nil), 0)
  }

  /** `sr_mw_queue::add`. The compare-and-swap loop takes the lock by setting
      it to 1; both exits store 0 back. Sequentially the lock is free on entry
      (a caller that found it held would spin until another writer freed it). */
  function MwAdd<T>(q: MwRing<T>, p: T): (r: Added<MwRing<T>>)
    requires Valid(q.ring) && q.writerLock == 0
    ensures r.state.writerLock == 0
    ensures r.ok == Add(q.ring, p).ok && r.state.ring == Add(q.ring, p).state
  {
    var locked := q.(writerLock := 1);
    if Count(locked.ring) == BufferSize then
      Added(false, locked.(writerLock := 0))
    else
      var write := Slot(locked.ring.writerPos);
      var ring := Ring(locked.ring.slots[write := p], locked.ring.readerPos, Inc(locked.ring.writerPos));
      Added(true, MwRing(ring, 0))
  }

  /** `sr_mw_queue::remove`: the reader takes no lock. */
  function MwRemove<T>(q: MwRing<T>, p: T): (r: Removed<MwRing<T>, T>)
    requires Valid(q.ring)
    ensures r.state.writerLock == q.writerLock
    ensures var s := Remove(q.ring, p);
            r.ok == s.ok && r.p == s.p && r.state.ring == s.state
  {
    if Count(q.ring) == 0 then Removed(false, p, q)
    else
      var read := Slot(q.ring.readerPos);
      Removed(true, q.ring.slots[read], q.(ring := Ring(q.ring.slots, Inc(q.ring.readerPos), q.ring.writerPos)))
  }
}

=== FILE: reactor.dfy ===
/** The threaded reactor `linux::event::thread` of event/event.cxx: an epoll
    instance, a table of registered handlers, a queue of deferred tasks, an
    eventfd that wakes the loop when a task is queued, and a signalfd whose
    readiness stops it.

    The model is the reactor thread's view as a pure state. Kernel calls are
    inputs: a wait is the batch of ready descriptors `epoll_wait` reports, and
    a deferred `epoll_ctl` add carries the status it will return. A drain read
    and the eventfd write of `async_call` always complete. Tasks and handlers
    are opaque identifiers; running one appends it to a trace. */
module Reactor {
  import opened Sys
  import opened Trigger

  /** `MAX_EVENTS`: the capacity of the `events` array handed to `epoll_wait`. */
  const MaxEvents: nat := 10

  /** An `event_helper`: the `epoll_event` mask to register and the task. */
  datatype Helper = Helper(events: int, handler: TaskId)

  /** A queued `std::function<void()>`: either the bound `epoll_ctl` add that
      `register_trigger` defers (carrying the mask stored in the table entry
      it points at, and the status the kernel gives the call when it runs on
      a descriptor not yet watched), or a task a caller passed to
      `async_call`. */
  datatype Task = EpollAdd(fd: Fd, events: int, outcome: Status) | Call(id: TaskId)

  /** What the reactor thread does, in order. */
  datatype Action =
    | RanHandler(fd: Fd, handler: TaskId)  // a table entry's task
    | RanTask(task: Task)                  // a queued task
    | Drained(fd: Fd)                      // the 8-byte read that discards a readiness
    | Shutdown                             // `stop = true`

  /** The reactor. `interest` is the epoll interest list, descriptor to mask;
      `wake` is the eventfd counter. */
  datatype Thread = Thread(
    epollFd: Fd, asyncFd: Fd, sigFd: Fd,
    helpers: map<Fd, Helper>,
    queue: seq<Task>,
    interest: map<Fd, int>,
    wake: nat,
    stop: bool)

  /** Results of the kernel calls the constructor makes, in its order. */
  datatype ThreadSetup = ThreadSetup(
    epoll: Created, eventfd: Created, signalfd: Created,
    watchSignal: Status, watchWakeup: Status, spawn: int)

  /** The descriptors the constructor obtains, in order: each creation is
      attempted only if the previous ones succeeded, and a slot it never
      filled still holds -1. */
  function Acquired(setup: ThreadSetup): seq<Fd> {
    var ep := setup.epoll.Stored();
    var ev := if setup.epoll.Opened? then setup.eventfd.Stored() else NoFd;
    var sg := if setup.epoll.Opened? && setup.eventfd.Opened? then setup.signalfd.Stored() else NoFd;
    [ep, ev, sg]
  }

  /** The constructor. Each descriptor member starts at -1 with its guard
      bound to it, so whichever step throws, the three guards close the three
      members in reverse declaration order: signal, wakeup, epoll. The wakeup
      and signal descriptors are in the interest list before the thread that
      runs the loop is started. */
  function NewThread(setup: ThreadSetup): (r: Construction<Thread>)
    ensures r.Built? <==> && setup.epoll.Opened? && setup.eventfd.Opened? && setup.signalfd.Opened?
                          && setup.watchSignal.Done? && setup.watchWakeup.Done? && setup.spawn == 0
    ensures r.Built? ==> && r.value.interest == map[r.value.sigFd := EPOLLIN, r.value.asyncFd := EPOLLIN]
                         && r.value.helpers == map[] && r.value.queue == [] && !r.value.stop
                         && r.value.epollFd == setup.epoll.fd
                         && r.value.asyncFd == setup.eventfd.fd
                         && r.value.sigFd == setup.signalfd.fd
                         && Inv(r.value)
    ensures r.Thrown? ==> r.closed == [Acquired(setup)[2], Acquired(setup)[1], Acquired(setup)[0]]
    ensures setup.epoll.CreateFailed? ==> r.Thrown? && r.errno == setup.epoll.errno
    ensures (setup.epoll.Opened? && setup.eventfd.CreateFailed?) ==> r.Thrown? && r.errno == setup.eventfd.errno
    ensures (&& setup.epoll.Opened? && setup.eventfd.Opened?
             && setup.signalfd.CreateFailed?) ==> r.Thrown? && r.errno == setup.signalfd.errno
    ensures (&& setup.epoll.Opened? && setup.eventfd.Opened? && setup.signalfd.Opened?
             && setup.watchSignal.Failed?) ==> r.Thrown? && r.errno == setup.watchSignal.errno
    ensures (&& setup.epoll.Opened? && setup.eventfd.Opened? && setup.signalfd.Opened?
             && setup.watchSignal.Done? && setup.watchWakeup.Failed?) ==> r.Thrown? && r.errno == setup.watchWakeup.errno
    ensures (&& r.Thrown? && setup.epoll.Opened? && setup.eventfd.Opened? && setup.signalfd.Opened?
             && setup.watchSignal.Done? && setup.watchWakeup.Done?) ==> r.errno == setup.spawn
  {
    var acquired := Acquired(setup);
    var ep, ev, sg := acquired[0], acquired[1], acquired[2];
    var unwind := [sg, ev, ep];
    if setup.epoll.CreateFailed? then Thrown(setup.epoll.errno, unwind)
    else if setup.eventfd.CreateFailed? then Thrown(setup.eventfd.errno, unwind)
    else if setup.signalfd.CreateFailed? then Thrown(setup.signalfd.errno, unwind)
    else if setup.watchSignal.Failed? then Thrown(setup.watchSignal.errno, unwind)
    else if setup.watchWakeup.Failed? then Thrown(setup.watchWakeup.errno, unwind)
    else if setup.spawn != 0 then Thrown(setup.spawn, unwind)
    else Built(Thread(ep, ev, sg, map[], [], map[sg := EPOLLIN, ev := EPOLLIN], 0, false))
  }

  /** No descriptor leaks and none is closed twice: a reactor keeps every
      descriptor its constructor obtained, and a constructor that throws has
      closed each one it obtained exactly once. */
  lemma NewThreadReleasesOnce(setup: ThreadSetup)
    ensures var r := NewThread(setup);
            && (r.Built? ==> ReleasedOnce(Acquired(setup), [], [r.value.epollFd, r.value.asyncFd, r.value.sigFd]))
            && (r.Thrown? ==> ReleasedOnce(Acquired(setup), r.closed, []))
  {
    var a := Acquired(setup);
    assert multiset([a[2], a[1], a[0]]) == multiset(a);
  }

  /** The reactor's consistency: the kernel can only report a descriptor in
      the interest list, and every such descriptor is the wakeup descriptor,
      the signal descriptor or has a table entry; a deferred add always
      refers to a table entry. */
  ghost predicate Inv(s: Thread) {
    && (forall fd :: fd in s.interest ==> fd in s.helpers || fd == s.asyncFd || fd == s.sigFd)
    && (forall i :: 0 <= i < |s.queue| && s.queue[i].EpollAdd? ==> s.queue[i].fd in s.helpers)
  }

  /** The tail of `async_call`: push the task, then write 1 to the eventfd. */
  function Enqueue(s: Thread, task: Task): (r: Thread)
    ensures r.queue == s.queue + [task] && r.wake == s.wake + 1 && r.wake > 0
    ensures r.(queue := s.queue, wake := s.wake) == s
  {
    s.(queue := s.queue + [task], wake := s.wake + 1)
  }

  /** `async_call(callee)`: the task joins the tail of the queue and the
      wakeup descriptor becomes readable; nothing runs yet. */
  function AsyncCall(s: Thread, id: TaskId): (r: Thread)
    ensures r.queue == s.queue + [Call(id)] && r.wake > 0
    ensures r.helpers == s.helpers && r.interest == s.interest && r.stop == s.stop
    ensures r == s.(queue := s.queue + [Call(id)], wake := s.wake + 1)
    ensures Inv(s) ==> Inv(r)
  {
    Enqueue(s, Call(id))
  }

  /** `register_trigger(t)`: record {mask, task} under `t.fd` with map insert
      semantics (an existing entry is kept as it is), then defer the epoll add
      of the entry's event through `async_call`. The interest list is not
      touched. `add` is the status the deferred `epoll_ctl` will return; the
      bound call discards it. */
  function RegisterTrigger(s: Thread, t: Trigger, add: Status): (r: Thread)
    ensures t.fd in r.helpers
    ensures t.fd in s.helpers ==> r.helpers == s.helpers
    ensures t.fd !in s.helpers ==> r.helpers == s.helpers[t.fd := Helper(t.events, t.handler)]
    ensures r.interest == s.interest
    ensures r.queue == s.queue + [EpollAdd(t.fd, r.helpers[t.fd].events, add)] && r.wake > 0
    ensures r == s.(helpers := r.helpers, queue := r.queue, wake := s.wake + 1)
    ensures Inv(s) ==> Inv(r)
  {
    var helpers := if t.fd in s.helpers then s.helpers else s.helpers[t.fd := Helper(t.events, t.handler)];
    Enqueue(s.(helpers := helpers), EpollAdd(t.fd, helpers[t.fd].events, add))
  }

  /** Running one queued task. A deferred add whose `epoll_ctl` succeeds
      puts the descriptor in the interest list. If the descriptor is already
      there the call fails with EEXIST; any failure (EPERM, EBADF, ENOMEM,
      ENOSPC, ...) is discarded by the bound call and leaves the list as it
      was. */
  function Apply(interest: map<Fd, int>, task: Task): map<Fd, int> {
    match task
    case EpollAdd(fd, events, outcome) =>
      if fd in interest || outcome.Failed? then interest else interest[fd := events]
    case Call(_) => interest
  }

  /** A deferred add whose `epoll_ctl` succeeds on a descriptor not yet watched. */
  predicate Succeeds(task: Task) {
    task.EpollAdd? && task.outcome.Done?
  }

  /** The descriptors the successful deferred adds among `tasks` refer to. */
  function AddedBy(tasks: seq<Task>): set<Fd> {
    set i | 0 <= i < |tasks| && Succeeds(tasks[i]) :: tasks[i].fd
  }

  /** `tasks[i]` is the first deferred add of `fd` that succeeds. */
  predicate FirstAddOf(tasks: seq<Task>, i: int, fd: Fd) {
    && 0 <= i < |tasks| && Succeeds(tasks[i]) && tasks[i].fd == fd
    && forall j :: 0 <= j < i ==> !(Succeeds(tasks[j]) && tasks[j].fd == fd)
  }

  /** Running `tasks` oldest first: each runs exactly once and in queue order,
      the interest list gains exactly the descriptors of the deferred adds
      that succeed, and entries already present keep their masks. */
  function RunTasks(interest: map<Fd, int>, tasks: seq<Task>): (r: (map<Fd, int>, seq<Action>))
    ensures |r.1| == |tasks|
    ensures forall i :: 0 <= i < |tasks| ==> r.1[i] == RanTask(tasks[i])
    ensures r.0.Keys == interest.Keys + AddedBy(tasks)
    ensures forall fd :: fd in interest ==> r.0[fd] == interest[fd]
    decreases |tasks|
  {
    if tasks == [] then (interest, [])
    else
      var rest := RunTasks(Apply(interest, tasks[0]), tasks[1..]);
      AddedByCons(tasks);
      (rest.0, [RanTask(tasks[0])] + rest.1)
  }

  /** A descriptor the tasks newly watch gets the mask of the first deferred
      add of it that succeeds; later adds of it change nothing. */
  lemma {:induction false} NewMaskIsFirstAdd(interest: map<Fd, int>, tasks: seq<Task>)
    ensures var r := RunTasks(interest, tasks).0;
            forall fd :: fd in r && fd !in interest ==>
              exists i :: FirstAddOf(tasks, i, fd) && r[fd] == tasks[i].events
    decreases |tasks|
  {
    if tasks != [] {
      var applied := Apply(interest, tasks[0]);
      var r := RunTasks(interest, tasks).0;
      assert r == RunTasks(applied, tasks[1..]).0;
      NewMaskIsFirstAdd(applied, tasks[1..]);
      forall fd | fd in r && fd !in interest
        ensures exists i :: FirstAddOf(tasks, i, fd) && r[fd] == tasks[i].events
      {
        if Succeeds(tasks[0]) && tasks[0].fd == fd {
          assert FirstAddOf(tasks, 0, fd) && r[fd] == tasks[0].events;
        } else {
          assert fd !in applied;
          var k :| FirstAddOf(tasks[1..], k, fd) && r[fd] == tasks[1..][k].events;
          FirstAddShift(tasks, k, fd);
        }
      }
    }
  }

  lemma AddedByCons(tasks: seq<Task>)
    requires tasks != []
    ensures AddedBy(tasks) == (if Succeeds(tasks[0]) then {tasks[0].fd} else {}) + AddedBy(tasks[1..])
  {
    forall fd | fd in AddedBy(tasks)
      ensures fd in (if Succeeds(tasks[0]) then {tasks[0].fd} else {}) + AddedBy(tasks[1..])
    {
      var i :| 0 <= i < |tasks| && Succeeds(tasks[i]) && tasks[i].fd == fd;
      if i > 0 { assert tasks[1..][i - 1] == tasks[i]; }
    }
    forall fd | fd in AddedBy(tasks[1..]) ensures fd in AddedBy(tasks) {
      var i :| 0 <= i < |tasks[1..]| && Succeeds(tasks[1..][i]) && tasks[1..][i].fd == fd;
      assert tasks[i + 1] == tasks[1..][i];
    }
  }

  lemma FirstAddShift(tasks: seq<Task>, k: int, fd: Fd)
    requires tasks != [] && !(Succeeds(tasks[0]) && tasks[0].fd == fd)
    requires FirstAddOf(tasks[1..], k, fd)
    ensures FirstAddOf(tasks, k + 1, fd) && tasks[k + 1] == tasks[1..][k]
  {
    assert forall j :: 1 <= j <= k + 1 ==> tasks[j] == tasks[1..][j - 1];
  }

  /** The result of dispatching: the new state, what ran, and whether an
      exception escaped `run` (which ends the reactor thread). */
  datatype Step = Step(state: Thread, trace: seq<Action>, fault: bool)

  /** A descriptor the loop has no branch and no table entry for. */
  predicate Unknown(s: Thread, fd: Fd) {
    fd != s.asyncFd && fd != s.sigFd && fd !in s.helpers
  }

  /** The body of the dispatch loop for one ready descriptor, checked in this
      order: the wakeup descriptor, the signal descriptor, anything else. It
      faults exactly on a descriptor that is none of those and has no table
      entry; it never touches the table or the three descriptors; it sets
      `stop` only for the signal descriptor; and every other descriptor
      ends with a drain read of itself. */
  function Dispatch(s: Thread, fd: Fd): (r: Step)
    ensures r.fault <==> Unknown(s, fd)
    ensures r.state.helpers == s.helpers
    ensures r.state.epollFd == s.epollFd && r.state.asyncFd == s.asyncFd && r.state.sigFd == s.sigFd
    ensures r.state.stop <==> s.stop || (fd == s.sigFd && fd != s.asyncFd)
    ensures !r.fault && (fd == s.asyncFd || fd != s.sigFd) ==> r.trace != [] && r.trace[|r.trace| - 1] == Drained(fd)
  {
    if fd == s.asyncFd then
      var ran := RunTasks(s.interest, s.queue);
      Step(s.(queue := [], interest := ran.0, wake := 0), ran.1 + [Drained(fd)], false)
    else if fd == s.sigFd then
      Step(s.(stop := true), [Shutdown], false)
    else if fd in s.helpers then
      Step(s, [RanHandler(fd, s.helpers[fd].handler), Drained(fd)], false)
    else
      // `event_helpers[fd]` default-constructs an entry whose empty task
      // throws `std::bad_function_call` when called.
      Step(s, [], true)
  }

  /** The wakeup descriptor runs every queued task, oldest first, each
      exactly once, leaves the queue empty, and only then makes its one read,
      which resets the counter. The deferred adds among the tasks reach the
      interest list; nothing else changes. */
  lemma WakeupDrainsQueue(s: Thread)
    ensures var r := Dispatch(s, s.asyncFd);
            && !r.fault
            && |r.trace| == |s.queue| + 1
            && (forall i :: 0 <= i < |s.queue| ==> r.trace[i] == RanTask(s.queue[i]))
            && r.trace[|s.queue|] == Drained(s.asyncFd)
            && r.state.queue == [] && r.state.wake == 0
            && r.state.interest.Keys == s.interest.Keys + AddedBy(s.queue)
            && r.state.helpers == s.helpers && r.state.stop == s.stop
  {
  }

  /** The signal descriptor only sets `stop`; it is not even read. */
  lemma SignalOnlyStops(s: Thread)
    requires s.sigFd != s.asyncFd
    ensures Dispatch(s, s.sigFd) == Step(s.(stop := true), [Shutdown], false)
  {
  }

  /** Any other descriptor: its entry's task runs first, and afterwards
      exactly one drain read is made on that descriptor; the state does not
      change. A descriptor with no entry ends the loop with an exception
      before anything runs. */
  lemma HandlerBeforeDrain(s: Thread, fd: Fd)
    requires fd != s.asyncFd && fd != s.sigFd
    ensures fd in s.helpers ==> Dispatch(s, fd) == Step(s, [RanHandler(fd, s.helpers[fd].handler), Drained(fd)], false)
    ensures fd !in s.helpers ==> Dispatch(s, fd).fault && Dispatch(s, fd).trace == []
  {
  }

  lemma DispatchKeepsInv(s: Thread, fd: Fd)
    requires Inv(s)
    ensures Inv(Dispatch(s, fd).state)
    ensures s.interest.Keys <= Dispatch(s, fd).state.interest.Keys
    ensures Dispatch(s, fd).state.asyncFd == s.asyncFd && Dispatch(s, fd).state.sigFd == s.sigFd
  {
    if fd == s.asyncFd {
      var ran := RunTasks(s.interest, s.queue);
      forall fd' | fd' in ran.0 ensures fd' in s.helpers || fd' == s.asyncFd || fd' == s.sigFd {
        if fd' !in s.interest {
          var i :| 0 <= i < |s.queue| && Succeeds(s.queue[i]) && s.queue[i].fd == fd';
        }
      }
    }
  }

  /** The `for` loop over one batch: descriptors in index order, stopping
      only if an exception escapes. `stop` is not consulted inside it. The
      table and the three descriptors never change; the batch faults exactly
      when some descriptor in it is unknown; and a batch that completes has
      set `stop` exactly when the signal descriptor was in it. */
  function DispatchBatch(s: Thread, batch: seq<Fd>): (r: Step)
    ensures r.state.helpers == s.helpers
    ensures r.state.epollFd == s.epollFd && r.state.asyncFd == s.asyncFd && r.state.sigFd == s.sigFd
    ensures r.fault <==> exists i :: 0 <= i < |batch| && Unknown(s, batch[i])
    ensures !r.fault ==> (r.state.stop <==> s.stop || (s.sigFd in batch && s.sigFd != s.asyncFd))
    decreases |batch|
  {
    if batch == [] then Step(s, [], false)
    else
      var first := Dispatch(s, batch[0]);
      assert forall i :: 1 <= i < |batch| ==> batch[i] == batch[1..][i - 1];
      assert s.sigFd in batch <==> batch[0] == s.sigFd || s.sigFd in batch[1..];
      if first.fault then first
      else
        var rest := DispatchBatch(first.state, batch[1..]);
        Step(rest.state, first.trace + rest.trace, rest.fault)
  }

  /** Continue a step with a further batch; a fault ends everything. */
  function Then(first: Step, batch: seq<Fd>): Step {
    if first.fault then first
    else
      var rest := DispatchBatch(first.state, batch);
      Step(rest.state, first.trace + rest.trace, rest.fault)
  }

  /** Dispatching a concatenation is dispatching the parts in turn. */
  lemma {:induction false} BatchSplit(s: Thread, a: seq<Fd>, b: seq<Fd>)
    ensures DispatchBatch(s, a + b) == Then(DispatchBatch(s, a), b)
    decreases |a|
  {
    if a == [] {
      assert a + b == b;
      assert DispatchBatch(s, b).trace == [] + DispatchBatch(s, b).trace;
    } else {
      var first := Dispatch(s, a[0]);
      assert (a + b)[0] == a[0] && (a + b)[1..] == a[1..] + b;
      if !first.fault {
        BatchSplit(first.state, a[1..], b);
        var x := DispatchBatch(first.state, a[1..]);
        if !x.fault {
          var y := DispatchBatch(x.state, b);
          assert first.trace + (x.trace + y.trace) == (first.trace + x.trace) + y.trace;
        }
      }
    }
  }

  /** Dispatching the batch does not read `stop`: a stopped and a running
      reactor dispatch the same batch identically, apart from the flag. */
  lemma {:induction false} BatchIgnoresStop(s: Thread, batch: seq<Fd>)
    ensures DispatchBatch(s.(stop := true), batch).trace == DispatchBatch(s, batch).trace
    ensures DispatchBatch(s.(stop := true), batch).fault == DispatchBatch(s, batch).fault
    ensures DispatchBatch(s.(stop := true), batch).state.(stop := true) == DispatchBatch(s, batch).state.(stop := true)
    decreases |batch|
  {
    if batch != [] {
      var first := Dispatch(s, batch[0]);
      var first' := Dispatch(s.(stop := true), batch[0]);
      assert first'.trace == first.trace && first'.fault == first.fault;
      assert first'.state == first.state.(stop := true);
      if !first.fault {
        BatchIgnoresStop(first.state, batch[1..]);
      }
    }
  }

  /** Nothing in a batch clears `stop`. */
  lemma {:induction false} StopStays(s: Thread, batch: seq<Fd>)
    requires s.stop
    ensures DispatchBatch(s, batch).state.stop
    decreases |batch|
  {
    if batch != [] {
      var first := Dispatch(s, batch[0]);
      if !first.fault {
        StopStays(first.state, batch[1..]);
      }
    }
  }

  /** The signal descriptor at the head of a batch: set `stop`, go on. */
  lemma SignalThen(s: Thread, post: seq<Fd>)
    requires s.sigFd != s.asyncFd
    ensures var tail := DispatchBatch(s.(stop := true), post);
            DispatchBatch(s, [s.sigFd] + post) == Step(tail.state, [Shutdown] + tail.trace, tail.fault)
  {
    assert ([s.sigFd] + post)[0] == s.sigFd && ([s.sigFd] + post)[1..] == post;
  }

  /** Shutdown does not cut a batch short: when the signal descriptor is
      reported, everything after it in the same batch is still dispatched
      exactly as it would have been, and `stop` is set at the end. */
  lemma ShutdownFinishesBatch(s: Thread, pre: seq<Fd>, post: seq<Fd>)
    requires s.sigFd != s.asyncFd
    requires !DispatchBatch(s, pre).fault
    ensures var before := DispatchBatch(s, pre);
            var after := DispatchBatch(before.state, post);
            var all := DispatchBatch(s, pre + [s.sigFd] + post);
            && all.trace == before.trace + [Shutdown] + after.trace
            && all.fault == after.fault
            && all.state.stop
  {
    var before := DispatchBatch(s, pre);
    var after := DispatchBatch(before.state, post);
    var stopped := before.state.(stop := true);
    var tail := DispatchBatch(stopped, post);
    var rest := DispatchBatch(before.state, [s.sigFd] + post);
    var all := DispatchBatch(s, pre + [s.sigFd] + post);
    assert all == Step(rest.state, before.trace + rest.trace, rest.fault) by {
      ConcatAssoc(pre, [s.sigFd], post);
      BatchSplit(s, pre, [s.sigFd] + post);
    }
    assert rest == Step(tail.state, [Shutdown] + tail.trace, tail.fault) by {
      SignalThen(before.state, post);
    }
    assert tail.trace == after.trace && tail.fault == after.fault by {
      BatchIgnoresStop(before.state, post);
    }
    assert tail.state.stop by {
      StopStays(stopped, post);
    }
    ShutdownSteps(all, before, rest, tail, after);
  }

  /** The step bookkeeping of `ShutdownFinishesBatch`. */
  lemma ShutdownSteps(all: Step, before: Step, rest: Step, tail: Step, after: Step)
    requires all == Step(rest.state, before.trace + rest.trace, rest.fault)
    requires rest == Step(tail.state, [Shutdown] + tail.trace, tail.fault)
    requires tail.trace == after.trace && tail.fault == after.fault && tail.state.stop
    ensures all.trace == before.trace + [Shutdown] + after.trace
    ensures all.fault == after.fault && all.state.stop
  {
    ConcatAssoc(before.trace, [Shutdown], tail.trace);
  }


  /** The invariant survives a batch, and the interest list only grows. */
  lemma {:induction false} BatchKeepsInv(s: Thread, batch: seq<Fd>)
    requires Inv(s)
    ensures Inv(DispatchBatch(s, batch).state)
    ensures s.interest.Keys <= DispatchBatch(s, batch).state.interest.Keys
    decreases |batch|
  {
    if batch != [] {
      DispatchKeepsInv(s, batch[0]);
      var first := Dispatch(s, batch[0]);
      if !first.fault {
        BatchKeepsInv(first.state, batch[1..]);
      }
    }
  }

  /** A batch the kernel can report (every descriptor in the interest list
      when the wait began) never reaches the faulting lookup. */
  lemma {:induction false} ReadyBatchNeverFaults(s: Thread, batch: seq<Fd>)
    requires Inv(s)
    requires forall i :: 0 <= i < |batch| ==> batch[i] in s.interest
    ensures !DispatchBatch(s, batch).fault
    decreases |batch|
  {
    if batch != [] {
      var first := Dispatch(s, batch[0]);
      assert !first.fault;
      DispatchKeepsInv(s, batch[0]);
      ReadyBatchNeverFaults(first.state, batch[1..]);
    }
  }

  /** What one `epoll_wait` returns: a batch of ready descriptors, or -1. */
  datatype Wait = Ready(batch: seq<Fd>) | WaitFailed(errno: int)

  /** The kernel fills at most `maxevents` entries. */
  predicate Bounded(waits: seq<Wait>) {
    forall i :: 0 <= i < |waits| && waits[i].Ready? ==> |waits[i].batch| <= MaxEvents
  }

  /** Every later wait of a bounded script is bounded too. */
  lemma BoundedTail(waits: seq<Wait>)
    requires Bounded(waits) && waits != []
    ensures Bounded(waits[1..])
  {
    forall i | 0 <= i < |waits[1..]| && waits[1..][i].Ready? ensures |waits[1..][i].batch| <= MaxEvents {
      assert waits[1..][i] == waits[i + 1];
    }
  }

  /** The outcome of `run`: the final state, everything that ran, how many
      waits the loop made, and whether it ended by an exception. */
  datatype RunResult = RunResult(state: Thread, trace: seq<Action>, waits: nat, fault: bool)

  /** `run()`: `while(!stop)` wait, then dispatch the batch. A failed wait
      (-1, whatever errno) dispatches nothing and the loop goes round again.
      The model stops when it runs out of scripted waits. */
  function Run(s: Thread, waits: seq<Wait>): (r: RunResult)
    requires Bounded(waits)
    ensures r.waits <= |waits|
    ensures s.stop ==> r == RunResult(s, [], 0, false)
    ensures !r.fault && r.waits < |waits| ==> r.state.stop
    ensures !s.stop && waits != [] ==> 1 <= r.waits
    ensures !s.stop && waits != [] && waits[0].Ready? ==>
              var b := DispatchBatch(s, waits[0].batch);
              && b.trace <= r.trace
              && (b.fault ==> r == RunResult(b.state, b.trace, 1, true))
              && (!b.fault && b.state.stop ==> r == RunResult(b.state, b.trace, 1, false))
    decreases |waits|
  {
    if s.stop || waits == [] then RunResult(s, [], 0, false)
    else
      var next := waits[1..];
      BoundedTail(waits);
      match waits[0]
      case WaitFailed(_) =>
        var rest := Run(s, next);
        rest.(waits := rest.waits + 1)
      case Ready(batch) =>
        var b := DispatchBatch(s, batch);
        if b.fault then RunResult(b.state, b.trace, 1, true)
        else
          var rest := Run(b.state, next);
          assert b.trace <= b.trace + rest.trace;
          assert b.state.stop ==> b.trace + rest.trace == b.trace;
          RunResult(rest.state, b.trace + rest.trace, rest.waits + 1, rest.fault)
  }

  /** Shutdown ends the loop after the batch that reports it: the whole
      batch is dispatched, `stop` is then found set at the loop head, and no
      further wait is made, whatever waits would have followed. */
  lemma ShutdownStopsRun(s: Thread, pre: seq<Fd>, post: seq<Fd>, rest: seq<Wait>)
    requires !s.stop && s.sigFd != s.asyncFd
    requires Bounded([Ready(pre + [s.sigFd] + post)] + rest)
    requires !DispatchBatch(s, pre).fault
    ensures var all := DispatchBatch(s, pre + [s.sigFd] + post);
            Run(s, [Ready(pre + [s.sigFd] + post)] + rest) == RunResult(all.state, all.trace, 1, all.fault)
  {
    ShutdownFinishesBatch(s, pre, post);
  }

  lemma BoundedConcat(a: seq<Wait>, b: seq<Wait>)
    requires Bounded(a) && Bounded(b)
    ensures Bounded(a + b)
  {
    forall i | 0 <= i < |a + b| && (a + b)[i].Ready? ensures |(a + b)[i].batch| <= MaxEvents {
      if i >= |a| { assert (a + b)[i] == b[i - |a|]; }
    }
  }

  /** One turn of `run` from a running reactor: the first wait, then the
      rest of the script from the state it left. */
  lemma RunHead(s: Thread, waits: seq<Wait>)
    requires !s.stop && Bounded(waits) && waits != []
    ensures Bounded(waits[1..])
    ensures waits[0].WaitFailed? ==> var rest := Run(s, waits[1..]);
              Run(s, waits) == rest.(waits := rest.waits + 1)
    ensures waits[0].Ready? ==> var b := DispatchBatch(s, waits[0].batch);
              && (b.fault ==> Run(s, waits) == RunResult(b.state, b.trace, 1, true))
              && (!b.fault ==> var rest := Run(b.state, waits[1..]);
                    Run(s, waits) == RunResult(rest.state, b.trace + rest.trace, rest.waits + 1, rest.fault))
  {
    BoundedTail(waits);
  }

  /** Waits that leave the reactor running compose with any later waits:
      the run over both is the run over the first, continued from the state
      it left; its trace is the two traces in turn. */
  lemma {:induction false} RunSplit(s: Thread, pre: seq<Wait>, post: seq<Wait>)
    requires !s.stop && Bounded(pre) && Bounded(post)
    requires !Run(s, pre).fault && !Run(s, pre).state.stop
    ensures Bounded(pre + post)
    ensures var a := Run(s, pre);
            var b := Run(a.state, post);
            Run(s, pre + post) == RunResult(b.state, a.trace + b.trace, |pre| + b.waits, b.fault)
    decreases |pre|
  {
    BoundedConcat(pre, post);
    if pre == [] {
      assert pre + post == post;
    } else {
      var ws := pre + post;
      assert ws[0] == pre[0] && ws[1..] == pre[1..] + post;
      RunHead(s, pre);
      RunHead(s, ws);
      match pre[0]
      case WaitFailed(_) =>
        RunSplit(s, pre[1..], post);
      case Ready(batch) =>
        var d := DispatchBatch(s, batch);
        assert !d.fault && !d.state.stop;
        RunSplit(d.state, pre[1..], post);
        var a := Run(d.state, pre[1..]);
        var b := Run(a.state, post);
        ConcatAssoc(d.trace, a.trace, b.trace);
    }
  }

  /** A shutdown reported in a later batch: after waits that left the
      reactor running, the batch holding the signal descriptor is dispatched
      whole and is the last wait. */
  lemma ShutdownAfterRunning(s: Thread, pre: seq<Wait>, before: seq<Fd>, after: seq<Fd>, rest: seq<Wait>)
    requires !s.stop && Bounded(pre)
    requires !Run(s, pre).fault && !Run(s, pre).state.stop
    requires var t := Run(s, pre).state; t.sigFd != t.asyncFd && !DispatchBatch(t, before).fault
    requires Bounded([Ready(before + [Run(s, pre).state.sigFd] + after)] + rest)
    ensures var a := Run(s, pre);
            var batch := before + [a.state.sigFd] + after;
            var all := DispatchBatch(a.state, batch);
            && Bounded(pre + ([Ready(batch)] + rest))
            && Run(s, pre + ([Ready(batch)] + rest)) == RunResult(all.state, a.trace + all.trace, |pre| + 1, all.fault)
            && all.state.stop
  {
    var a := Run(s, pre);
    var batch := before + [a.state.sigFd] + after;
    RunSplit(s, pre, [Ready(batch)] + rest);
    ShutdownStopsRun(a.state, before, after, rest);
    ShutdownFinishesBatch(a.state, before, after);
  }

  /** A failed wait changes nothing, whatever errno says: `run` does not
      inspect it. */
  lemma FailedWaitIsIgnored(s: Thread, errno: int, waits: seq<Wait>)
    requires !s.stop && Bounded([WaitFailed(errno)] + waits)
    ensures Bounded(waits)
    ensures var r := Run(s, [WaitFailed(errno)] + waits);
            var r' := Run(s, waits);
            r.state == r'.state && r.trace == r'.trace && r.waits == r'.waits + 1
  {
    assert ([WaitFailed(errno)] + waits)[1..] == waits;
    BoundedTail([WaitFailed(errno)] + waits);
  }

  /** A registration reaches the multiplexer only through the queue: right
      after `register_trigger` the interest list is unchanged; the next
      dispatch of the wakeup descriptor runs the deferred add, after which the
      descriptor is watched exactly when it already was, an earlier queued
      add of it succeeded, or this add succeeded. */
  lemma RegistrationIsDeferred(s: Thread, t: Trigger, add: Status)
    ensures var r := RegisterTrigger(s, t, add);
            && r.interest == s.interest
            && RanTask(EpollAdd(t.fd, r.helpers[t.fd].events, add)) in Dispatch(r, s.asyncFd).trace
            && (t.fd in Dispatch(r, s.asyncFd).state.interest
                <==> t.fd in s.interest || t.fd in AddedBy(s.queue) || add.Done?)
  {
    var r := RegisterTrigger(s, t, add);
    var n := |r.queue| - 1;
    assert r.queue[n] == EpollAdd(t.fd, r.helpers[t.fd].events, add);
    assert t.fd in AddedBy(r.queue) <==> t.fd in AddedBy(s.queue) || add.Done? by {
      if add.Done? {
        assert Succeeds(r.queue[n]);
      }
      if t.fd in AddedBy(s.queue) {
        var i :| 0 <= i < |s.queue| && Succeeds(s.queue[i]) && s.queue[i].fd == t.fd;
        assert r.queue[i] == s.queue[i];
      }
      if t.fd in AddedBy(r.queue) && !add.Done? {
        var i :| 0 <= i < |r.queue| && Succeeds(r.queue[i]) && r.queue[i].fd == t.fd;
        assert i < n && r.queue[i] == s.queue[i];
      }
    }
    WakeupDrainsQueue(r);
    assert Dispatch(r, s.asyncFd).trace[n] == RanTask(r.queue[n]);
  }

  /** Tasks run in the order `async_call` queued them: after two calls, the
      next wakeup runs everything queued before, then the first task, then
      the second, then drains the counter. */
  lemma AsyncCallsRunInOrder(s: Thread, a: TaskId, b: TaskId)
    ensures var s' := AsyncCall(AsyncCall(s, a), b);
            var tasks := s.queue + [Call(a), Call(b)];
            Dispatch(s', s.asyncFd).trace == seq(|tasks|, i requires 0 <= i < |tasks| => RanTask(tasks[i])) + [Drained(s.asyncFd)]
  {
    var s' := AsyncCall(AsyncCall(s, a), b);
    assert s'.queue == s.queue + [Call(a), Call(b)];
    WakeupDrainsQueue(s');
  }

  /** The invariant holds for as long as the loop runs. */
  lemma {:induction false} RunKeepsInv(s: Thread, waits: seq<Wait>)
    requires Inv(s) && Bounded(waits)
    ensures Inv(Run(s, waits).state)
    decreases |waits|
  {
    if !s.stop && waits != [] {
      var next := waits[1..];
      BoundedTail(waits);
      match waits[0]
      case WaitFailed(_) =>
        RunKeepsInv(s, next);
      case Ready(batch) =>
        BatchKeepsInv(s, batch);
        var b := DispatchBatch(s, batch);
        if !b.fault {
          RunKeepsInv(b.state, next);
        }
    }
  }
}

=== FILE: sys.dfy ===
/** The operating-system vocabulary the model needs. Almost every system
    call the source makes (epoll, eventfd, timerfd, signalfd, close, read) is
    not executed here: its result is an input to the operation that makes
    it. The exceptions are the reactor's eventfd write and drain reads,
    which are taken to succeed. */
module Sys {

  /** A descriptor number as the C++ code holds it; -1 means "none". */
  type Fd = int

  const NoFd: Fd := -1
  const STDIN_FILENO: Fd := 0

  /** errno values and flags with their Linux numbers. */
  const EINTR: int := 4
  const EPOLLIN: int := 1
  const SIGUSR2: int := 12

  /** The outcome of a call that creates a descriptor (`epoll_create1`,
      `eventfd`, `timerfd_create`, `signalfd`): a descriptor, or -1 and errno. */
  datatype Created = Opened(fd: nat) | CreateFailed(errno: int) {
    /** The value the C++ code stores in its `int` member. */
    function Stored(): Fd {
      if Opened? then fd else NoFd
    }
  }

  /** The outcome of a call that returns 0 or -1 with errno. */
  datatype Status = Done | Failed(errno: int)

  predicate Interrupted(s: Status) {
    s.Failed? && s.errno == EINTR
  }

  /** Regrouping a concatenation, for traces and logs built piecewise. */
  lemma ConcatAssoc<T>(a: seq<T>, b: seq<T>, c: seq<T>)
    ensures a + (b + c) == a + b + c
  {
  }

  /** The close-retry deleter (`deleter4fd`, and the identical `FDDeleter` of
      the demo and `deleter` of the socket example): call `close` once, and
      again for as long as the call fails with EINTR. `outcomes` are the
      results the kernel gives to successive calls. `calls` is how many calls
      were made; `settled` is false only if every outcome supplied was EINTR,
      in which case the loop would still be running. */
  method CloseRetry(outcomes: seq<Status>) returns (calls: nat, settled: bool)
    ensures calls <= |outcomes|
    ensures settled ==> 1 <= calls && !Interrupted(outcomes[calls - 1])
    ensures forall i :: 0 <= i < calls - 1 ==> Interrupted(outcomes[i])
    ensures !settled ==> calls == |outcomes| && forall i :: 0 <= i < |outcomes| ==> Interrupted(outcomes[i])
  {
    calls := 0;
    settled := false;
    while calls < |outcomes| && !settled
      invariant calls <= |outcomes|
      invariant settled ==> 1 <= calls && !Interrupted(outcomes[calls - 1])
      invariant !settled ==> forall i :: 0 <= i < calls ==> Interrupted(outcomes[i])
      invariant forall i :: 0 <= i < calls - 1 ==> Interrupted(outcomes[i])
    {
      settled := !Interrupted(outcomes[calls]);
      calls := calls + 1;
    }
  }
}

=== FILE: trigger.dfy ===
/** Triggers: an event source the reactor watches (descriptor, interest mask,
    task to run), and the timer trigger, which creates and owns a timer
    descriptor of its own. Tasks are opaque identifiers: the model records
    which task runs, never what it does. */
module Trigger {
  import opened Sys

  /** A `std::function<void()>`, by identity. */
  type TaskId = nat

  /** The `trigger` fields event/event.cxx reads: `t.fd`, `t.events`,
      `t.handler`. */
  datatype Trigger = Trigger(fd: Fd, events: int, handler: TaskId)

  /** The `itimerspec` a timer is armed with, in whole seconds:
      `it_value` (first expiry) and `it_interval` (period). */
  datatype TimerSpec = TimerSpec(initial: nat, interval: nat)

  /** A `timer_trigger`. `fd`, `events` and `task` are what `native_handle()`,
      `get_events()` and `get_task()` return; `owns` says whether its
      descriptor guard still holds the descriptor (false once moved from). */
  datatype TimerTrigger = TimerTrigger(fd: Fd, events: int, task: TaskId, spec: TimerSpec, owns: bool) {
    /** The `trigger` view of a timer trigger. */
    function AsTrigger(): Trigger {
      Trigger(fd, events, task)
    }
  }

  /** The descriptors a trigger's destructor closes through its guard. */
  function Closes(t: TimerTrigger): seq<Fd> {
    if t.owns then [t.fd] else []
  }

  /** Every real (non-negative) descriptor in `acquired` ends up exactly
      once in `closed` or in `kept`, and no other real descriptor is closed or
      kept. Closing -1 is a harmless EBADF and is not counted. */
  ghost predicate ReleasedOnce(acquired: seq<Fd>, closed: seq<Fd>, kept: seq<Fd>) {
    forall fd: nat :: multiset(closed)[fd] + multiset(kept)[fd] == multiset(acquired)[fd]
  }

  /** A constructor either yields an object or throws; a throw carries the
      errno behind the `strerror` message and the descriptors the guards
      closed during unwinding, in order. */
  datatype Construction<T> = Built(value: T) | Thrown(errno: int, closed: seq<Fd>)

  /** The `timer_trigger(sec, handler)` constructor. `create` and `arm` are
      the results of `timerfd_create` and `timerfd_settime`. */
  function NewTimerTrigger(sec: nat, task: TaskId, create: Created, arm: Status): (r: Construction<TimerTrigger>)
    ensures r.Built? <==> create.Opened? && arm.Done?
    ensures r.Built? ==> && r.value.fd == create.fd
                         && r.value.events == EPOLLIN
                         && r.value.task == task
                         && r.value.spec == TimerSpec(1, sec)
    ensures r.Thrown? ==> r.errno == (if create.CreateFailed? then create.errno else arm.errno)
    ensures r.Built? ==> ReleasedOnce([create.Stored()], [], Closes(r.value))
    ensures r.Thrown? ==> ReleasedOnce([create.Stored()], r.closed, [])
  {
    // The base starts with descriptor -1 and the guard is bound to it at
    // once, so a throw at either step closes whatever the member holds.
    var fd := create.Stored();
    if create.CreateFailed? then Thrown(create.errno, [fd])
    else if arm.Failed? then Thrown(arm.errno, [fd])
    else Built(TimerTrigger(fd, EPOLLIN, task, TimerSpec(1, sec), true))
  }

  /** The move constructor: the new object takes over descriptor, mask, task
      and guard; the source is left with no descriptor and no guard. */
  function Move(t: TimerTrigger): (r: (TimerTrigger, TimerTrigger))
    ensures r.0.AsTrigger() == t.AsTrigger() && r.0.spec == t.spec
    ensures !r.1.owns && r.1.fd == NoFd
    ensures Closes(r.0) + Closes(r.1) == Closes(t)
  {
    (t, t.(fd := NoFd, owns := false))
  }
}
